=== FILE: README.md ===
# Equinox p2 provisioning pieces, modelled in Dafny

This project models five classes of Eclipse Equinox p2 and proves properties of them:

- **The jar delta optimizer** (`Optimizer`). It groups a repository's artifact keys by their versionless identity and sorts each group newest first. In every group of at least two keys it takes the `width` newest keys. It scans the descriptors of each such key, remembering the last canonical one. Every descriptor that is canonical or not optimized sends the remembered canonical descriptor through optimization, so one canonical descriptor can be optimized several times. Each optimization produces up to `depth` jar delta descriptors, one against each of the newest complete predecessors. When a descriptor that is neither canonical nor optimized comes before any canonical one, the null canonical descriptor is passed on, and the NullPointerException ends the whole run after the optimizations already made.
- **The argument handling of the artifact mirror application** (`MirrorApplication`). This is the field defaults, the `initializeFromArguments` scan, and the source/destination check that opens `setupRepositories`.
- **The native touchpoint** (`NativeTouchpoint`). This covers the phases it supports, its collect, unzip and chmod actions with their undo, the artifact requests collect builds, its touchpoint type, and `initializePhase`.
- **`MissingAction`**, the action that stands in for an unresolved action id.
- **`SourceManipulator`**, the lazily loaded list of a profile's source bundles.

Every Java exception is a value, not a precondition. An operation without effects before the throw gives a `Common.Outcome`, either `Returned` or `Thrown`. Where calls already made matter, the result records them next to the exception that ended the run (`JarDeltaOptimizer.Dispatch`, `JarDeltaOptimizer.RunTrace`). A `null` is `Common.None`. Everything the classes get from their environment is passed in as data:

- the repository's descriptors (`JarDeltaOptimizer.Repository`);
- URI parsing (`fromString`);
- the download cache and the file system (`NativeTouchpoint.Environment`);
- the content of `source.info` (`SourceManipulator.SourceInfo`);
- `BundleInfo.equals` (`equals`).

Streams, logging and file writes are left out. Requested file-system changes are recorded as `Effect` values instead of being performed.

Files:

- `common.dfy`: options, outcomes, exceptions, statuses, and the iteration count of `for (j = 0; j < Math.min(bound, n); j++)`.
- `versions.dfy`: the version order and `Version.toString`.
- `sorting.dfy`: the newest-first sort.
- `metadata.dfy`: artifact keys, units, operands and profiles.
- `optimizer.dfy`: `Optimizer`.
- `mirror.dfy`: `MirrorApplication`.
- `native_touchpoint.dfy`: `NativeTouchpoint`.
- `missing_action.dfy`: `MissingAction`.
- `source_manipulator.dfy`: `SourceManipulator`.

## Model

| member | source | states |
|---|---|---|
| JarDeltaOptimizer.IsCanonical | bundles/org.eclipse.equinox.p2.artifact.optimizers/src/org/eclipse/equinox/internal/p2/artifact/optimizers/jardelta/Optimizer.java:241-244 | Defines a canonical descriptor as one without processing steps. |
| JarDeltaOptimizer.IsOptimized | bundles/org.eclipse.equinox.p2.artifact.optimizers/src/org/eclipse/equinox/internal/p2/artifact/optimizers/jardelta/Optimizer.java:235-239 | Defines an optimized descriptor as one with exactly one processing step and the jarDelta format property. |
| JarDeltaOptimizer.CanonicalNotOptimized | bundles/org.eclipse.equinox.p2.artifact.optimizers/src/org/eclipse/equinox/internal/p2/artifact/optimizers/jardelta/Optimizer.java:235-244 | No descriptor is both canonical and optimized, so an optimized descriptor never leads to a call in the descriptor scan. |
| JarDeltaOptimizer.Versionless | bundles/org.eclipse.equinox.p2.artifact.optimizers/src/org/eclipse/equinox/internal/p2/artifact/optimizers/jardelta/Optimizer.java:107-109 | Defines the versionless key: the same classifier and id with the empty version. |
| JarDeltaOptimizer.VersionlessRelates | bundles/org.eclipse.equinox.p2.artifact.optimizers/src/org/eclipse/equinox/internal/p2/artifact/optimizers/jardelta/Optimizer.java:107-109 | Two keys share a versionless key exactly when their classifiers and ids agree. Taking the versionless key twice changes nothing, and its version is the empty version. |
| JarDeltaOptimizer.FreeKeysSpec | bundles/org.eclipse.equinox.p2.artifact.optimizers/src/org/eclipse/equinox/internal/p2/artifact/optimizers/jardelta/Optimizer.java:128-138 | The map's keys are exactly the versionless keys of the input, each once. |
| JarDeltaOptimizer.RelatedSpec | bundles/org.eclipse.equinox.p2.artifact.optimizers/src/org/eclipse/equinox/internal/p2/artifact/optimizers/jardelta/Optimizer.java:129-138 | The list for a versionless key holds every key of that identity, as often as the input does, and no other key. |
| JarDeltaOptimizer.CollectStep | bundles/org.eclipse.equinox.p2.artifact.optimizers/src/org/eclipse/equinox/internal/p2/artifact/optimizers/jardelta/Optimizer.java:131-137 | One iteration of the grouping loop keeps the map and the order of first appearance consistent with the keys seen so far. |
| JarDeltaOptimizer.CollectRelated | bundles/org.eclipse.equinox.p2.artifact.optimizers/src/org/eclipse/equinox/internal/p2/artifact/optimizers/jardelta/Optimizer.java:129-138 | The grouping loop maps every identity seen, and only those, to its keys in input order. |
| JarDeltaOptimizer.GroupsPartition | bundles/org.eclipse.equinox.p2.artifact.optimizers/src/org/eclipse/equinox/internal/p2/artifact/optimizers/jardelta/Optimizer.java:128-146 | Grouping is a partition: the groups together hold exactly the input keys, with multiplicity. |
| JarDeltaOptimizer.GroupsOfLast | bundles/org.eclipse.equinox.p2.artifact.optimizers/src/org/eclipse/equinox/internal/p2/artifact/optimizers/jardelta/Optimizer.java:130-137 | Adding a key puts it into exactly one group: the group of its identity, or a new one. |
| JarDeltaOptimizer.SortEach | bundles/org.eclipse.equinox.p2.artifact.optimizers/src/org/eclipse/equinox/internal/p2/artifact/optimizers/jardelta/Optimizer.java:139-146 | Each group is sorted newest first, and each sorted group is a permutation of the unsorted one. |
| JarDeltaOptimizer.SortedGroupsSpec | bundles/org.eclipse.equinox.p2.artifact.optimizers/src/org/eclipse/equinox/internal/p2/artifact/optimizers/jardelta/Optimizer.java:128-158 | There is one non-empty, newest-first group per identity. Distinct groups have distinct identities. Each group holds all keys of its identity, and the groups together hold exactly the input. |
| JarDeltaOptimizer.GetSortedRelatedArtifactKeys | bundles/org.eclipse.equinox.p2.artifact.optimizers/src/org/eclipse/equinox/internal/p2/artifact/optimizers/jardelta/Optimizer.java:128-158 | The whole of getSortedRelatedArtifactKeys has the properties in the previous row. |
| JarDeltaOptimizer.SortKeys | bundles/org.eclipse.equinox.p2.artifact.optimizers/src/org/eclipse/equinox/internal/p2/artifact/optimizers/jardelta/Optimizer.java:144 | The sort of one group is a permutation of it, newest first. |
| JarDeltaOptimizer.Selection | bundles/org.eclipse.equinox.p2.artifact.optimizers/src/org/eclipse/equinox/internal/p2/artifact/optimizers/jardelta/Optimizer.java:78-82 | A group of fewer than two keys is skipped. Any other group gives its first min(width, size) keys, and none when width is not positive. |
| JarDeltaOptimizer.SelectionIsNewest | bundles/org.eclipse.equinox.p2.artifact.optimizers/src/org/eclipse/equinox/internal/p2/artifact/optimizers/jardelta/Optimizer.java:77-82 | The keys processed in a sorted group are its newest ones: no unprocessed key is newer than a processed one. |
| JarDeltaOptimizer.RunGroup | bundles/org.eclipse.equinox.p2.artifact.optimizers/src/org/eclipse/equinox/internal/p2/artifact/optimizers/jardelta/Optimizer.java:78-86 | A group with fewer than two keys yields nothing. Any other group yields its first min(width, size) keys, in order, and none when width is not positive. |
| JarDeltaOptimizer.PlanMembers | bundles/org.eclipse.equinox.p2.artifact.optimizers/src/org/eclipse/equinox/internal/p2/artifact/optimizers/jardelta/Optimizer.java:77-86 | A key is processed exactly when it lies in a group of two or more keys within the first min(width, size) positions. |
| JarDeltaOptimizer.Run | bundles/org.eclipse.equinox.p2.artifact.optimizers/src/org/eclipse/equinox/internal/p2/artifact/optimizers/jardelta/Optimizer.java:76-86 | The width loop visits exactly the keys the previous row describes, group by group. Whether run reaches them all is stated by the RunOptimizations rows. |
| JarDeltaOptimizer.DispatchFrom | bundles/org.eclipse.equinox.p2.artifact.optimizers/src/org/eclipse/equinox/internal/p2/artifact/optimizers/jardelta/Optimizer.java:92-105 | The optimize(keys, key) scan never throws once a canonical descriptor has been seen, and passes on at most one descriptor per descriptor visited. |
| JarDeltaOptimizer.DispatchCalledCanonical | bundles/org.eclipse.equinox.p2.artifact.optimizers/src/org/eclipse/equinox/internal/p2/artifact/optimizers/jardelta/Optimizer.java:94-103 | Every descriptor passed on to optimize(canonical, keys) is canonical. |
| JarDeltaOptimizer.DispatchOf | bundles/org.eclipse.equinox.p2.artifact.optimizers/src/org/eclipse/equinox/internal/p2/artifact/optimizers/jardelta/Optimizer.java:92-105 | Every descriptor optimize(keys, key) passes on is a canonical descriptor of the key. |
| JarDeltaOptimizer.DispatchNull | bundles/org.eclipse.equinox.p2.artifact.optimizers/src/org/eclipse/equinox/internal/p2/artifact/optimizers/jardelta/Optimizer.java:94-103 | The scan throws exactly when a descriptor that is neither canonical nor optimized comes before the first canonical one. That call receives a null canonical descriptor. |
| JarDeltaOptimizer.DispatchCount | bundles/org.eclipse.equinox.p2.artifact.optimizers/src/org/eclipse/equinox/internal/p2/artifact/optimizers/jardelta/Optimizer.java:95-104 | Without that failure, there is one call per descriptor that is canonical or not optimized. Each non-canonical, non-optimized descriptor sends the last canonical descriptor through optimization again. |
| JarDeltaOptimizer.DispatchCoversCanonical | bundles/org.eclipse.equinox.p2.artifact.optimizers/src/org/eclipse/equinox/internal/p2/artifact/optimizers/jardelta/Optimizer.java:95-104 | Without that failure, every canonical descriptor of the key gets optimized. |
| JarDeltaOptimizer.Triggering | bundles/org.eclipse.equinox.p2.artifact.optimizers/src/org/eclipse/equinox/internal/p2/artifact/optimizers/jardelta/Optimizer.java:97-102 | Defines the descriptors that lead to a call: those that are canonical or not optimized. |
| JarDeltaOptimizer.ScanKeeps | bundles/org.eclipse.equinox.p2.artifact.optimizers/src/org/eclipse/equinox/internal/p2/artifact/optimizers/jardelta/Optimizer.java:95-103 | One iteration of the descriptor loop skips the descriptor, ends the scan with the null canonical descriptor, or adds one call with the last canonical descriptor. |
| JarDeltaOptimizer.OptimizeKey | bundles/org.eclipse.equinox.p2.artifact.optimizers/src/org/eclipse/equinox/internal/p2/artifact/optimizers/jardelta/Optimizer.java:92-105 | The loop as written makes the calls the previous rows describe and throws as they describe. |
| JarDeltaOptimizer.RunCalls | bundles/org.eclipse.equinox.p2.artifact.optimizers/src/org/eclipse/equinox/internal/p2/artifact/optimizers/jardelta/Optimizer.java:74-90 | run passes each visited key through optimize(keys, key) in order. It stops at the first key whose scan passes on a null canonical descriptor, and the only exception it ends with is a NullPointerException. Every recorded call carries a canonical descriptor. |
| JarDeltaOptimizer.RunThrows | bundles/org.eclipse.equinox.p2.artifact.optimizers/src/org/eclipse/equinox/internal/p2/artifact/optimizers/jardelta/Optimizer.java:85-103 | run ends with an exception exactly when some visited key has a descriptor that is neither canonical nor optimized before its first canonical one. Otherwise it returns normally. |
| JarDeltaOptimizer.RunStopsAtFailure | bundles/org.eclipse.equinox.p2.artifact.optimizers/src/org/eclipse/equinox/internal/p2/artifact/optimizers/jardelta/Optimizer.java:77-86 | Nothing after a failing key is optimized: the calls and the exception equal those of the visits up to and including that key. |
| JarDeltaOptimizer.RunCompleteCovers | bundles/org.eclipse.equinox.p2.artifact.optimizers/src/org/eclipse/equinox/internal/p2/artifact/optimizers/jardelta/Optimizer.java:77-104 | When run returns normally, every canonical descriptor of every visited key has been optimized, on behalf of that key's group. |
| JarDeltaOptimizer.RunStep | bundles/org.eclipse.equinox.p2.artifact.optimizers/src/org/eclipse/equinox/internal/p2/artifact/optimizers/jardelta/Optimizer.java:80-86 | One step of run at a visited key either ends run with that key's partial calls and the exception, or appends its calls to those of the keys after it. |
| JarDeltaOptimizer.RunKeeps | bundles/org.eclipse.equinox.p2.artifact.optimizers/src/org/eclipse/equinox/internal/p2/artifact/optimizers/jardelta/Optimizer.java:80-86 | One visited key either ends run with its partial calls and the exception, or adds its calls to those already made. |
| JarDeltaOptimizer.OptimizeAll | bundles/org.eclipse.equinox.p2.artifact.optimizers/src/org/eclipse/equinox/internal/p2/artifact/optimizers/jardelta/Optimizer.java:80-86 | The loops as written make the calls RunCalls describes and throw where it does. |
| JarDeltaOptimizer.RunOptimizations | bundles/org.eclipse.equinox.p2.artifact.optimizers/src/org/eclipse/equinox/internal/p2/artifact/optimizers/jardelta/Optimizer.java:74-90 | run over the sorted groups makes those calls. It returns normally exactly when no visited key fails. |
| JarDeltaOptimizer.RunRepository | bundles/org.eclipse.equinox.p2.artifact.optimizers/src/org/eclipse/equinox/internal/p2/artifact/optimizers/jardelta/Optimizer.java:74-90 | run over the repository's keys makes the calls RunCalls describes for the visited keys. It returns normally exactly when no visited key fails. When it throws, some key of the repository fails. Its groups are those of getSortedRelatedArtifactKeys: one non-empty, newest-first group per versionless identity, each holding every key of that identity as often as the repository lists it. |
| JarDeltaOptimizer.FirstCanonical | bundles/org.eclipse.equinox.p2.artifact.optimizers/src/org/eclipse/equinox/internal/p2/artifact/optimizers/jardelta/Optimizer.java:221-226 | The inner loop finds the first canonical descriptor of a key: no earlier descriptor is canonical. It finds nothing exactly when none is canonical. |
| JarDeltaOptimizer.FindCanonical | bundles/org.eclipse.equinox.p2.artifact.optimizers/src/org/eclipse/equinox/internal/p2/artifact/optimizers/jardelta/Optimizer.java:221-226 | The loop with its early break finds that same first canonical descriptor. |
| JarDeltaOptimizer.CompletePredecessors | bundles/org.eclipse.equinox.p2.artifact.optimizers/src/org/eclipse/equinox/internal/p2/artifact/optimizers/jardelta/Optimizer.java:214-227 | There is at most one complete descriptor per related key, all of them canonical, and fewer than the related keys when the key itself is among them. |
| JarDeltaOptimizer.CompletePredecessorsSnoc | bundles/org.eclipse.equinox.p2.artifact.optimizers/src/org/eclipse/equinox/internal/p2/artifact/optimizers/jardelta/Optimizer.java:215-226 | Walking one more related key adds its first canonical descriptor, or nothing when the key is the one being optimized or has no canonical descriptor. |
| JarDeltaOptimizer.PredecessorMembers | bundles/org.eclipse.equinox.p2.artifact.optimizers/src/org/eclipse/equinox/internal/p2/artifact/optimizers/jardelta/Optimizer.java:215-227 | A descriptor is a complete predecessor exactly when it is the first canonical descriptor of some related key other than the key being optimized. |
| JarDeltaOptimizer.PredecessorKeys | bundles/org.eclipse.equinox.p2.artifact.optimizers/src/org/eclipse/equinox/internal/p2/artifact/optimizers/jardelta/Optimizer.java:215-220 | In a repository that files every descriptor under its own key, no complete predecessor has the key being optimized, and each belongs to a related key. |
| JarDeltaOptimizer.SortDescriptors | bundles/org.eclipse.equinox.p2.artifact.optimizers/src/org/eclipse/equinox/internal/p2/artifact/optimizers/jardelta/Optimizer.java:229-231 | Sorting yields the same descriptors, newest first. |
| JarDeltaOptimizer.GetSortedCompletePredecessors | bundles/org.eclipse.equinox.p2.artifact.optimizers/src/org/eclipse/equinox/internal/p2/artifact/optimizers/jardelta/Optimizer.java:212-233 | The result is a newest-first permutation of the complete predecessors, is no longer than the related keys, and is all canonical. |
| JarDeltaOptimizer.JarDelta | bundles/org.eclipse.equinox.p2.artifact.optimizers/src/org/eclipse/equinox/internal/p2/artifact/optimizers/jardelta/Optimizer.java:168-173 | The new descriptor keeps the canonical key and its other properties. It has exactly one step, the JarDeltaPatchStep carrying the predecessor's external form, and the jarDelta format. So it counts as optimized and not canonical. |
| JarDeltaOptimizer.MakeDeltas | bundles/org.eclipse.equinox.p2.artifact.optimizers/src/org/eclipse/equinox/internal/p2/artifact/optimizers/jardelta/Optimizer.java:165-173 | The depth loop makes min(depth, #predecessors) deltas, none when depth is not positive, and the i-th is against the i-th predecessor. |
| JarDeltaOptimizer.OptimizeCanonical | bundles/org.eclipse.equinox.p2.artifact.optimizers/src/org/eclipse/equinox/internal/p2/artifact/optimizers/jardelta/Optimizer.java:160-173 | The depth loop makes min(depth, #predecessors) deltas, one against each of the newest predecessors in order, and none when depth is not positive. No unused predecessor is newer than a used one, and every delta is an optimized descriptor of the canonical key. |
| Sorting.Insert | bundles/org.eclipse.equinox.p2.artifact.optimizers/src/org/eclipse/equinox/internal/p2/artifact/optimizers/jardelta/Optimizer.java:246-256 | Inserting into a newest-first sequence keeps it newest first and adds exactly the one element. |
| Sorting.SortNewestFirst | bundles/org.eclipse.equinox.p2.artifact.optimizers/src/org/eclipse/equinox/internal/p2/artifact/optimizers/jardelta/Optimizer.java:246-256 | Sorting with the negated version comparators gives a newest-first permutation of the input. |
| Versions.Compare | bundles/org.eclipse.equinox.p2.artifact.optimizers/src/org/eclipse/equinox/internal/p2/artifact/optimizers/jardelta/Optimizer.java:246-256 | The version order the comparators negate: major, minor and micro numerically, then the qualifier. Its result is -1, 0 or 1. |
| Versions.CompareIsTotalOrder | bundles/org.eclipse.equinox.p2.artifact.optimizers/src/org/eclipse/equinox/internal/p2/artifact/optimizers/jardelta/Optimizer.java:246-256 | The version order the comparators negate is a total order: antisymmetric, zero only on equal versions, total and transitive. |
| Common.LoopCount | bundles/org.eclipse.equinox.p2.artifact.optimizers/src/org/eclipse/equinox/internal/p2/artifact/optimizers/jardelta/Optimizer.java:81-82 | The loop bounded by Math.min(width, length) runs min(width, length) times, and not at all for a non-positive width. |
| MirrorArguments.OptionOf | bundles/org.eclipse.equinox.p2.artifact.repository/src/org/eclipse/equinox/internal/p2/artifact/mirror/MirrorApplication.java:137-162 | Each of the eight option names is recognised case-insensitively, and no token matches two of them. |
| MirrorArguments.OptionLiterals | bundles/org.eclipse.equinox.p2.artifact.repository/src/org/eclipse/equinox/internal/p2/artifact/mirror/MirrorApplication.java:155-162 | The tokens -source, -destination and -comparator name their own options. |
| MirrorArguments.ApplyFlags | bundles/org.eclipse.equinox.p2.artifact.repository/src/org/eclipse/equinox/internal/p2/artifact/mirror/MirrorApplication.java:137-146 | Each flag option only ever switches its own setting: -raw, -append, -verbose and -compare on, -ignoreErrors turns failOnError off. Nothing else changes. |
| MirrorArguments.ApplyValue | bundles/org.eclipse.equinox.p2.artifact.repository/src/org/eclipse/equinox/internal/p2/artifact/mirror/MirrorApplication.java:155-165 | -comparator sets the comparator id. -source and -destination set their location. A value that does not parse as a URI throws an IllegalArgumentException naming it. No other setting changes. |
| MirrorArguments.InitializeFromArguments | bundles/org.eclipse.equinox.p2.artifact.repository/src/org/eclipse/equinox/internal/p2/artifact/mirror/MirrorApplication.java:132-167 | The index loop that skips a consumed value computes the recursive scan. A null argument array leaves every field at its initial value (lines 38-46). |
| MirrorArguments.DashedTokensAreOptions | bundles/org.eclipse.equinox.p2.artifact.repository/src/org/eclipse/equinox/internal/p2/artifact/mirror/MirrorApplication.java:148-153 | A token starting with '-' is never consumed as a value. |
| MirrorArguments.ValuesAreNotOptions | bundles/org.eclipse.equinox.p2.artifact.repository/src/org/eclipse/equinox/internal/p2/artifact/mirror/MirrorApplication.java:151-153 | A token consumed as a value is never read as an option. |
| MirrorArguments.ScanFlags | bundles/org.eclipse.equinox.p2.artifact.repository/src/org/eclipse/equinox/internal/p2/artifact/mirror/MirrorApplication.java:135-146 | After a successful scan, each flag is set exactly when a token read as an option names it, case-insensitively. |
| MirrorArguments.ScanAppend | bundles/org.eclipse.equinox.p2.artifact.repository/src/org/eclipse/equinox/internal/p2/artifact/mirror/MirrorApplication.java:135-153 | The scan of a concatenation whose second part starts with an option is the scan of the first part resumed on the second. |
| MirrorArguments.AppendOption | bundles/org.eclipse.equinox.p2.artifact.repository/src/org/eclipse/equinox/internal/p2/artifact/mirror/MirrorApplication.java:151-165 | Appending an option and its value applies that option to whatever the earlier arguments produced. |
| MirrorArguments.LaterSourceOverrides | bundles/org.eclipse.equinox.p2.artifact.repository/src/org/eclipse/equinox/internal/p2/artifact/mirror/MirrorApplication.java:159-160 | A later -source with a well-formed value wins over anything before it and fails only where the earlier arguments fail. |
| MirrorArguments.LaterComparatorOverrides | bundles/org.eclipse.equinox.p2.artifact.repository/src/org/eclipse/equinox/internal/p2/artifact/mirror/MirrorApplication.java:155-156 | A later -comparator wins over anything before it. |
| MirrorArguments.SetupRepositories | bundles/org.eclipse.equinox.p2.artifact.repository/src/org/eclipse/equinox/internal/p2/artifact/mirror/MirrorApplication.java:95-97 | The run proceeds exactly when both a source and a destination were given. Otherwise it throws IllegalStateException(exception_needSourceDestination). |
| MirrorArguments.Start | bundles/org.eclipse.equinox.p2.artifact.repository/src/org/eclipse/equinox/internal/p2/artifact/mirror/MirrorApplication.java:52-54 | An exception from parsing the arguments propagates unchanged. Otherwise the run proceeds exactly when both locations were given, with the parsed settings, and is refused with IllegalStateException(exception_needSourceDestination) when either is missing. |
| MirrorArguments.NoArgumentsIsRefused | bundles/org.eclipse.equinox.p2.artifact.repository/src/org/eclipse/equinox/internal/p2/artifact/mirror/MirrorApplication.java:51-54 | Started with no arguments, or with a null array, the application refuses to run. |
| MirrorArguments.SourceAndDestinationSuffice | bundles/org.eclipse.equinox.p2.artifact.repository/src/org/eclipse/equinox/internal/p2/artifact/mirror/MirrorApplication.java:51-54 | Well-formed -source and -destination values after any successfully parsed arguments let the run proceed. |
| NativeTouchpoint.Supports | bundles/org.eclipse.equinox.p2.touchpoint.natives/src/org/eclipse/equinox/internal/p2/touchpoint/natives/NativeTouchpoint.java:28-37 | Exactly the collect, install and uninstall phases are supported. |
| NativeTouchpoint.GetAction | bundles/org.eclipse.equinox.p2.touchpoint.natives/src/org/eclipse/equinox/internal/p2/touchpoint/natives/NativeTouchpoint.java:39-108 | There is an action exactly for "collect", "unzip" and "chmod". |
| NativeTouchpoint.GetActionRoundTrip | bundles/org.eclipse.equinox.p2.touchpoint.natives/src/org/eclipse/equinox/internal/p2/touchpoint/natives/NativeTouchpoint.java:39-108 | Each action is found under its own id and under no other. |
| NativeTouchpoint.GetTouchpointType | bundles/org.eclipse.equinox.p2.touchpoint.natives/src/org/eclipse/equinox/internal/p2/touchpoint/natives/NativeTouchpoint.java:110-112 | The touchpoint type is "native", version 1.0.0. |
| NativeTouchpoint.Collect | bundles/org.eclipse.equinox.p2.touchpoint.natives/src/org/eclipse/equinox/internal/p2/touchpoint/natives/NativeTouchpoint.java:114-131 | One mirror request into the download cache per artifact of the unit, in order, or none when the artifact array is null. An unusable download cache throws first. The trimming copy is never needed. |
| NativeTouchpoint.CollectRequests | bundles/org.eclipse.equinox.p2.touchpoint.natives/src/org/eclipse/equinox/internal/p2/touchpoint/natives/NativeTouchpoint.java:114-131 | The requests correspond one to one with the unit's artifacts and target the cache. It throws exactly when the cache is unusable. |
| NativeTouchpoint.Execute | bundles/org.eclipse.equinox.p2.touchpoint.natives/src/org/eclipse/equinox/internal/p2/touchpoint/natives/NativeTouchpoint.java:39-107 | execute throws only a NullPointerException or the cache error. Only collect changes the parameters, and it only appends one request array to artifactRequests. chmod always returns OK. |
| NativeTouchpoint.CollectAppendsOneRequestArray | bundles/org.eclipse.equinox.p2.touchpoint.natives/src/org/eclipse/equinox/internal/p2/touchpoint/natives/NativeTouchpoint.java:42-49 | collect's execute adds exactly one request array to artifactRequests: element i is the mirror request of the added unit's artifact i into the download cache. It keeps the earlier arrays and every other parameter, and returns OK. |
| NativeTouchpoint.CollectFailures | bundles/org.eclipse.equinox.p2.touchpoint.natives/src/org/eclipse/equinox/internal/p2/touchpoint/natives/NativeTouchpoint.java:43-46 | collect's execute fails exactly when the download cache is unusable or the operand adds no unit. The cache is checked first. |
| NativeTouchpoint.ExecuteUnzip | bundles/org.eclipse.equinox.p2.touchpoint.natives/src/org/eclipse/equinox/internal/p2/touchpoint/natives/NativeTouchpoint.java:58-82 | unzip leaves the parameters unchanged and unzips at most one file, always into the target, and nothing when it returns an ERROR. It throws only for "@artifact", with a NullPointerException or the cache error. |
| NativeTouchpoint.UnzipArtifactCases | bundles/org.eclipse.equinox.p2.touchpoint.natives/src/org/eclipse/equinox/internal/p2/touchpoint/natives/NativeTouchpoint.java:60-80 | Unzipping "@artifact" returns OK without unzipping when the unit has no artifacts. It throws the cache error when the download cache is unusable. It throws a NullPointerException when the cache returns no file for the first artifact. If that cached file is missing, it returns an ERROR naming that file. Otherwise it unzips that file into the target. |
| NativeTouchpoint.ChmodIgnoresPermissions | bundles/org.eclipse.equinox.p2.touchpoint.natives/src/org/eclipse/equinox/internal/p2/touchpoint/natives/NativeTouchpoint.java:91-97 | chmod's effect is the same whatever the permissions parameter says. |
| NativeTouchpoint.Undo | bundles/org.eclipse.equinox.p2.touchpoint.natives/src/org/eclipse/equinox/internal/p2/touchpoint/natives/NativeTouchpoint.java:83-86 | undo returns OK and changes nothing. |
| NativeTouchpoint.UndoAlwaysOk | bundles/org.eclipse.equinox.p2.touchpoint.natives/src/org/eclipse/equinox/internal/p2/touchpoint/natives/NativeTouchpoint.java:50-104 | Every native action's undo returns OK, before or after its execute. |
| NativeTouchpoint.InitializePhase | bundles/org.eclipse.equinox.p2.touchpoint.natives/src/org/eclipse/equinox/internal/p2/touchpoint/natives/NativeTouchpoint.java:179-182 | The profile's install folder is published under "installFolder", or null when it is unset. All other parameters are kept, and the status is null. |
| Metadata.GetValue | bundles/org.eclipse.equinox.p2.touchpoint.natives/src/org/eclipse/equinox/internal/p2/touchpoint/natives/NativeTouchpoint.java:133-135 | A profile value is present exactly when the property is set, and then it is that property. |
| MissingActions.NewMissingAction | bundles/org.eclipse.equinox.p2.engine/src/org/eclipse/equinox/internal/provisional/p2/engine/MissingAction.java:25-36 | The accessors return the id and version range given to the constructor. |
| MissingActions.Detail | bundles/org.eclipse.equinox.p2.engine/src/org/eclipse/equinox/internal/provisional/p2/engine/MissingAction.java:39 | The failure detail is the action id, followed by "/" and the range exactly when a range was given. |
| MissingActions.DetailDeterminesRange | bundles/org.eclipse.equinox.p2.engine/src/org/eclipse/equinox/internal/provisional/p2/engine/MissingAction.java:39 | For one action id, the detail determines the version range. |
| MissingActions.Execute | bundles/org.eclipse.equinox.p2.engine/src/org/eclipse/equinox/internal/provisional/p2/engine/MissingAction.java:38-40 | execute always throws an IllegalArgumentException with the action_not_found message bound to the detail. |
| MissingActions.Undo | bundles/org.eclipse.equinox.p2.engine/src/org/eclipse/equinox/internal/provisional/p2/engine/MissingAction.java:42-45 | undo always returns OK. |
| SourceManipulator.Load | bundles/org.eclipse.equinox.p2.touchpoint.eclipse/src/org/eclipse/equinox/internal/p2/touchpoint/eclipse/SourceManipulator.java:69-74 | Loading reads the file's entries, or yields an empty list when there is no file. |
| SourceManipulator.GetBundles | bundles/org.eclipse.equinox.p2.touchpoint.eclipse/src/org/eclipse/equinox/internal/p2/touchpoint/eclipse/SourceManipulator.java:31-35 | getBundles loads only when nothing was loaded yet and returns the current list. |
| SourceManipulator.GetBundlesIsSnapshot | bundles/org.eclipse.equinox.p2.touchpoint.eclipse/src/org/eclipse/equinox/internal/p2/touchpoint/eclipse/SourceManipulator.java:31-35 | getBundles returns the list in order, and calling it again changes nothing. |
| SourceManipulator.AddBundle | bundles/org.eclipse.equinox.p2.touchpoint.eclipse/src/org/eclipse/equinox/internal/p2/touchpoint/eclipse/SourceManipulator.java:37-41 | One entry carrying only the file's location is appended, and the earlier entries are unchanged. |
| SourceManipulator.AddBundleWithVersion | bundles/org.eclipse.equinox.p2.touchpoint.eclipse/src/org/eclipse/equinox/internal/p2/touchpoint/eclipse/SourceManipulator.java:43-50 | One entry with the location, symbolic name and version string is appended, and the earlier entries are unchanged. |
| SourceManipulator.IndexOf | bundles/org.eclipse.equinox.p2.touchpoint.eclipse/src/org/eclipse/equinox/internal/p2/touchpoint/eclipse/SourceManipulator.java:61 | The position is that of the first entry the probe equals, or the length when there is none. |
| SourceManipulator.RemoveFirst | bundles/org.eclipse.equinox.p2.touchpoint.eclipse/src/org/eclipse/equinox/internal/p2/touchpoint/eclipse/SourceManipulator.java:61 | The list is unchanged exactly when no entry equals the probe. Otherwise only the first such entry is removed. |
| SourceManipulator.RemoveBundle | bundles/org.eclipse.equinox.p2.touchpoint.eclipse/src/org/eclipse/equinox/internal/p2/touchpoint/eclipse/SourceManipulator.java:52-62 | removeBundle removes one entry exactly when some entry equals the probe, and that entry is the first equal one. Otherwise the list is unchanged. The probe has a location only when a file is given. |
| SourceManipulator.AddThenRemove | bundles/org.eclipse.equinox.p2.touchpoint.eclipse/src/org/eclipse/equinox/internal/p2/touchpoint/eclipse/SourceManipulator.java:43-62 | Removing the entry just added restores the list when no earlier entry matches it. |
| SourceManipulator.LoadedAtMostOnce | bundles/org.eclipse.equinox.p2.touchpoint.eclipse/src/org/eclipse/equinox/internal/p2/touchpoint/eclipse/SourceManipulator.java:32-54 | Once the list is loaded, no operation reads source.info again. |
| SourceManipulator.Save | bundles/org.eclipse.equinox.p2.touchpoint.eclipse/src/org/eclipse/equinox/internal/p2/touchpoint/eclipse/SourceManipulator.java:64-67 | save writes the list exactly when it was loaded. |

## Left out

- Output streams, the processing-step pipeline (JarDeltaOptimizerStep, ProcessingStepHandler), `repository.getArtifact`, and their statuses and exceptions (Optimizer.java:174-208) are left out. They are I/O; the model stops at the descriptor each delta is written under.
- The repository stays fixed through a run, although each delta written through `repository.getOutputStream` (Optimizer.java:174) joins the repository that later `getArtifactDescriptors` calls read. This changes no result: those deltas are optimized and not canonical, so they neither lead to a call in the descriptor scan nor become complete predecessors (JarDeltaOptimizer.CanonicalNotOptimized).
- All `System.out` logging, including the candidate count of getSortedRelatedArtifactKeys, is left out, since it is output only.
- JarDeltaOptimizer.GetSortedRelatedArtifactKeys: the groups come in order of first appearance. The source's HashMap leaves their order unspecified, so only per-group properties and the partition are stated.
- The unused `isArchive` flag in `run` is left out, since it has no effect.
- `Version` is not part of this model. Its compareTo is taken to be the OSGi order (major, minor, micro, then qualifier), and only its total-order properties are used.
- Versions.CompareStrings compares characters. Java's String.compareTo compares UTF-16 code units, and the two orders agree on the characters a qualifier uses.
- MirrorArguments.OptionOf: Java's `equalsIgnoreCase` is modelled as ASCII case folding plus the few non-ASCII characters that fold onto the letters of the option names (dotted and dotless i, long s, Kelvin sign). Other Unicode case pairs cannot occur in a match with these ASCII names.
- The repository manager, its loading and creation of repositories, the `Mirroring` run, and the statuses it logs (MirrorApplication.java:55-123) are left out. They are services and I/O; the model ends once setupRepositories has found both locations.
- `URIUtil.fromString` is a parameter, since URI syntax is not part of this model.
- `MD5ArtifactComparator.MD5_COMPARATOR_ID`, `IArtifactDescriptor.FORMAT`, `Profile.PROP_INSTALL_FOLDER` and `ArtifactKey.toExternalForm` are not part of this model. Their values here ("org.eclipse.equinox.artifact.md5.comparator", "format", "org.eclipse.equinox.p2.installFolder", and the comma-joined classifier, id and version) are assumptions.
- Message templates (`Messages.*`) are not part of this model. Messages are modelled as the template key plus its arguments.
- Service lookups in NativeTouchpoint (agent location, repository manager) are left out. They are summarised by `Environment`; a cache that cannot be adapted to a file repository throws as in getDownloadCacheRepo.
- Unzipping and changing permissions are left out. Both are file-system effects, recorded as `Effect` values.
- Null arguments and null parameter values other than the unit are left out, along with what they would cause: strings, versions and action ids are modelled as non-null. This leaves out the NullPointerExceptions of `getAction(null)` (NativeTouchpoint.java:40), of a null element among the mirror arguments (MirrorApplication.java:137), and of a null `bundleVersion` in `addBundle` and `removeBundle` (SourceManipulator.java:48, :60). It also leaves out the text "null" that a null action id puts into MissingAction's message (MissingAction.java:39).
- `File.toURL` failures (MalformedURLException) and I/O errors while reading or saving `source.info` are left out. Both are I/O.
- The content written by `SimpleConfiguratorManipulatorImpl.saveConfiguration` is left out. It is not part of this model; `Save` returns the list it is given.
- The touchpoint engine, phases and profiles beyond the properties read here are not part of this model.

=== FILE: common.dfy ===
/** Shared result types: optional values, the status a provisioning action
    reports, and the exceptions the modelled Java code throws. */
module Common {

  /** A value that may be absent (Java's null). */
  datatype Option<+T> = None | Some(value: T)

  /** A human-readable message: either a localized template key bound to
      arguments (NLS.bind over a Messages constant) or literal text. */
  datatype Message =
    | Localized(key: string, arguments: seq<string>)
    | Literal(text: string)

  /** The runtime exceptions the modelled code can throw. */
  datatype Exception =
    | IllegalArgument(message: Message)
    | IllegalState(message: Message)
    | NullPointer

  /** An IStatus: OK, or an ERROR carrying the reporting plug-in and a message. */
  datatype Status = Ok | Error(pluginId: string, message: string)

  /** The outcome of a Java call: it returned a value, or it threw. */
  datatype Outcome<+T> = Returned(value: T) | Thrown(exception: Exception)

  function Min(a: int, b: int): int {
    if a <= b then a else b
  }

  function Max(a: int, b: int): int {
    if a <= b then b else a
  }

  /** How many iterations `for (j = 0; j < Math.min(bound, n); j++)` performs. */
  function LoopCount(bound: int, n: nat): (c: nat)
    ensures c <= n
    ensures bound >= n ==> c == n
    ensures 0 <= bound <= n ==> c == bound
    ensures bound <= 0 ==> c == 0
  {
    Max(0, Min(bound, n))
  }

  /** Java's `s.startsWith(prefix)`. */
  predicate StartsWith(s: string, prefix: string) {
    |prefix| <= |s| && s[..|prefix|] == prefix
  }
}

=== FILE: metadata.dfy ===
/** The metadata values the modelled code passes around: artifact keys,
    installable units, operands and profiles. Their Java classes are not part
    of this model; only the fields the core reads are kept. */
module Metadata {
  import opened Common
  import opened Versions

  /** An artifact key: classifier, id and version; equal when all three are. */
  datatype ArtifactKey = ArtifactKey(classifier: string, id: string, version: Version)

  /** ArtifactKey.toExternalForm, taken here to be the comma-joined
      classifier, id and version. */
  function ExternalForm(k: ArtifactKey): string {
    k.classifier + "," + k.id + "," + Versions.ToString(k.version)
  }

  /** An installable unit, reduced to its identity and its artifacts; the
      artifact array may be null. */
  datatype InstallableUnit = InstallableUnit(id: string, version: Version, artifacts: Option<seq<ArtifactKey>>)

  /** A unit-level change: the unit being removed and the unit being added. */
  datatype Operand = Operand(first: Option<InstallableUnit>, second: Option<InstallableUnit>)

  /** A profile, reduced to its string properties. */
  datatype Profile = Profile(properties: map<string, string>)

  /** Profile.getValue: the property, or null when it is unset. */
  function GetValue(p: Profile, key: string): (r: Option<string>)
    ensures r.Some? <==> key in p.properties
    ensures r.Some? ==> r.value == p.properties[key]
  {
    if key in p.properties then Some(p.properties[key]) else None
  }
}

=== FILE: mirror.dfy ===
/** The mirror application's command-line handling: the argument scan of
    initializeFromArguments and the source/destination check that opens
    setupRepositories. Repository loading and mirroring are not modelled;
    URI parsing is a parameter. */
module MirrorArguments {
  import opened Common

  /** A parsed repository location. */
  datatype Uri = Uri(text: string)

  /** MD5ArtifactComparator.MD5_COMPARATOR_ID, the default comparator. */
  const MD5_COMPARATOR_ID := "org.eclipse.equinox.artifact.md5.comparator"

  /** The application's fields that the arguments set. */
  datatype MirrorSettings = MirrorSettings(
    sourceLocation: Option<Uri>,
    destinationLocation: Option<Uri>,
    append: bool,
    raw: bool,
    failOnError: bool,
    verbose: bool,
    compare: bool,
    comparatorId: string)

  /** The field initializers. */
  const Defaults := MirrorSettings(None, None, false, false, true, false, false, MD5_COMPARATOR_ID)

  /** The case mapping String.equalsIgnoreCase applies, restricted to what
      matters when one side is an ASCII option name: ASCII letters fold to
      lower case, and so do the four other characters whose Java upper or
      lower case is an ASCII letter (dotted capital I, dotless small i, long
      s and the Kelvin sign). */
  function Fold(c: char): char {
    if 'A' <= c <= 'Z' then (c as int + 32) as char
    else if c == 'İ' || c == 'ı' then 'i'
    else if c == 'ſ' then 's'
    else if c == 'K' then 'k'
    else c
  }

  /** `token.equalsIgnoreCase(name)` for an option name in lower-case ASCII. */
  predicate Matches(token: string, name: string) {
    |token| == |name| && forall i :: 0 <= i < |token| ==> Fold(token[i]) == name[i]
  }

  /** Whether a token can open an option instead of being a value. */
  predicate IsDashed(token: string) {
    StartsWith(token, "-")
  }

  /** The options the scan recognizes; a token matches at most one. */
  datatype OptionName =
    | Raw | Append | IgnoreErrors | Verbose | CompareFlag
    | Comparator | Source | Destination
    | NotAnOption

  /** No token matches two option names. */
  lemma NamesExclusive(token: string)
    ensures !(Matches(token, "-source") && Matches(token, "-append"))
    ensures !(Matches(token, "-verbose") && Matches(token, "-compare"))
  {
    if Matches(token, "-source") {
      assert Fold(token[1]) == 's';
    }
    if Matches(token, "-verbose") {
      assert Fold(token[1]) == 'v';
    }
  }

  /** The option a token names, compared case-insensitively. */
  function OptionOf(token: string): (r: OptionName)
    ensures r == Raw <==> Matches(token, "-raw")
    ensures r == Append <==> Matches(token, "-append")
    ensures r == IgnoreErrors <==> Matches(token, "-ignoreerrors")
    ensures r == Verbose <==> Matches(token, "-verbose")
    ensures r == CompareFlag <==> Matches(token, "-compare")
    ensures r == Comparator <==> Matches(token, "-comparator")
    ensures r == Source <==> Matches(token, "-source")
    ensures r == Destination <==> Matches(token, "-destination")
  {
    NamesExclusive(token);
    if Matches(token, "-raw") then Raw
    else if Matches(token, "-append") then Append
    else if Matches(token, "-ignoreerrors") then IgnoreErrors
    else if Matches(token, "-verbose") then Verbose
    else if Matches(token, "-compare") then CompareFlag
    else if Matches(token, "-comparator") then Comparator
    else if Matches(token, "-source") then Source
    else if Matches(token, "-destination") then Destination
    else NotAnOption
  }

  /** The option names themselves, in any case, are recognized. */
  lemma OptionLiterals()
    ensures OptionOf("-source") == Source && OptionOf("-destination") == Destination
    ensures OptionOf("-comparator") == Comparator
  {
    assert Matches("-source", "-source");
    assert Matches("-destination", "-destination");
    assert Matches("-comparator", "-comparator");
  }

  /** The flags without a value: each one only ever switches its setting. */
  function ApplyFlags(token: string, s: MirrorSettings): (r: MirrorSettings)
    ensures r.raw == (s.raw || Matches(token, "-raw"))
    ensures r.append == (s.append || Matches(token, "-append"))
    ensures r.failOnError == (s.failOnError && !Matches(token, "-ignoreerrors"))
    ensures r.verbose == (s.verbose || Matches(token, "-verbose"))
    ensures r.compare == (s.compare || Matches(token, "-compare"))
    ensures r.sourceLocation == s.sourceLocation && r.destinationLocation == s.destinationLocation
    ensures r.comparatorId == s.comparatorId
  {
    match OptionOf(token)
    case Raw => s.(raw := true)
    case Append => s.(append := true)
    case IgnoreErrors => s.(failOnError := false)
    case Verbose => s.(verbose := true)
    case CompareFlag => s.(compare := true)
    case _ => s
  }

  /** The options with a value, applied to the option token and the value
      consumed after it. A malformed location is an IllegalArgumentException
      naming the value. */
  function ApplyValue(option: string, arg: string, s: MirrorSettings, fromString: string -> Option<Uri>): (r: Outcome<MirrorSettings>)
    ensures r.Thrown? <==> (Matches(option, "-source") || Matches(option, "-destination")) && fromString(arg).None?
    ensures r.Thrown? ==> r.exception == IllegalArgument(Localized("exception_malformedRepoURI", [arg]))
    ensures r.Returned? ==> r.value.comparatorId == (if Matches(option, "-comparator") then arg else s.comparatorId)
    ensures r.Returned? ==> r.value.sourceLocation == (if Matches(option, "-source") then fromString(arg) else s.sourceLocation)
    ensures r.Returned? ==> r.value.destinationLocation == (if Matches(option, "-destination") then fromString(arg) else s.destinationLocation)
    ensures r.Returned? ==> r.value.(comparatorId := s.comparatorId, sourceLocation := s.sourceLocation, destinationLocation := s.destinationLocation) == s
  {
    var malformed := IllegalArgument(Localized("exception_malformedRepoURI", [arg]));
    match OptionOf(option)
    case Comparator => Returned(s.(comparatorId := arg))
    case Source =>
      (match fromString(arg)
       case None => Thrown(malformed)
       case Some(u) => Returned(s.(sourceLocation := Some(u))))
    case Destination =>
      (match fromString(arg)
       case None => Thrown(malformed)
       case Some(u) => Returned(s.(destinationLocation := Some(u))))
    case _ => Returned(s)
  }

  /** Whether the token at `i` takes the next token as its value: it is not
      the last token and the next one does not start with '-'. */
  predicate TakesValue(args: seq<string>, i: nat)
    requires i < |args|
  {
    i + 1 < |args| && !IsDashed(args[i + 1])
  }

  /** The scan from position `i` on. */
  function Scan(args: seq<string>, i: nat, s: MirrorSettings, fromString: string -> Option<Uri>): Outcome<MirrorSettings>
    decreases |args| - i
  {
    if i >= |args| then Returned(s)
    else
      var s := ApplyFlags(args[i], s);
      if !TakesValue(args, i) then Scan(args, i + 1, s, fromString)
      else
        match ApplyValue(args[i], args[i + 1], s, fromString)
        case Thrown(e) => Thrown(e)
        case Returned(s) => Scan(args, i + 2, s, fromString)
  }

  /** The positions the scan reads as options, from position `i` on; the
      tokens it consumes as values are not among them. */
  function OptionPositions(args: seq<string>, i: nat): (r: set<nat>)
    ensures forall p :: p in r ==> i <= p < |args|
    decreases |args| - i
  {
    if i >= |args| then {}
    else if !TakesValue(args, i) then {i} + OptionPositions(args, i + 1)
    else {i} + OptionPositions(args, i + 2)
  }

  /** initializeFromArguments, started from the field initializers: a null
      argument array leaves every setting at its default. */
  function Parse(args: Option<seq<string>>, fromString: string -> Option<Uri>): Outcome<MirrorSettings> {
    match args
    case None => Returned(Defaults)
    case Some(a) => Scan(a, 0, Defaults, fromString)
  }

  /** initializeFromArguments as the source writes it: an index loop that
      advances by one, or by two when a value is consumed. */
  method InitializeFromArguments(args: Option<seq<string>>, fromString: string -> Option<Uri>) returns (r: Outcome<MirrorSettings>)
    ensures r == Parse(args, fromString)
    ensures args.None? ==> r == Returned(Defaults)
  {
    if args.None? {
      return Returned(Defaults);
    }
    var a := args.value;
    var s := Defaults;
    var i := 0;
    while i < |a|
      invariant 0 <= i <= |a|
      invariant Scan(a, i, s, fromString) == Parse(args, fromString)
      decreases |a| - i
    {
      s := ApplyFlags(a[i], s);
      if i == |a| - 1 || IsDashed(a[i + 1]) {
        i := i + 1;
        continue;
      }
      i := i + 1;
      var arg := a[i];
      match ApplyValue(a[i - 1], arg, s, fromString) {
        case Thrown(e) =>
          return Thrown(e);
        case Returned(s') =>
          s := s';
      }
      i := i + 1;
    }
    r := Returned(s);
  }

  // ---------------------------------------------------------------------
  // Properties of the scan

  /** Every token starting with '-' is read as an option: such a token is
      never consumed as a value. */
  lemma {:induction false} DashedTokensAreOptions(args: seq<string>, i: nat, p: nat)
    requires i <= p < |args| && IsDashed(args[p])
    ensures p in OptionPositions(args, i)
    decreases |args| - i
  {
    if i < p {
      if !TakesValue(args, i) {
        DashedTokensAreOptions(args, i + 1, p);
      } else {
        assert i + 1 != p;
        DashedTokensAreOptions(args, i + 2, p);
      }
    }
  }

  /** A consumed value is never read as an option. */
  lemma {:induction false} ValuesAreNotOptions(args: seq<string>, i: nat, p: nat)
    requires p in OptionPositions(args, i) && TakesValue(args, p)
    ensures p + 1 !in OptionPositions(args, i)
    decreases |args| - i
  {
    if i < p {
      if !TakesValue(args, i) {
        ValuesAreNotOptions(args, i + 1, p);
      } else {
        ValuesAreNotOptions(args, i + 2, p);
      }
    }
  }

  /** Flag semantics of a successful scan: a boolean option ends up set
      exactly when it was set before or one of the tokens read as an option
      names it, case-insensitively; no option reverts a setting. */
  lemma {:induction false} ScanFlags(args: seq<string>, i: nat, s: MirrorSettings, fromString: string -> Option<Uri>)
    requires Scan(args, i, s, fromString).Returned?
    ensures var r := Scan(args, i, s, fromString).value;
      && (r.raw <==> s.raw || exists p :: p in OptionPositions(args, i) && Matches(args[p], "-raw"))
      && (r.append <==> s.append || exists p :: p in OptionPositions(args, i) && Matches(args[p], "-append"))
      && (r.failOnError <==> s.failOnError && !exists p :: p in OptionPositions(args, i) && Matches(args[p], "-ignoreerrors"))
      && (r.verbose <==> s.verbose || exists p :: p in OptionPositions(args, i) && Matches(args[p], "-verbose"))
      && (r.compare <==> s.compare || exists p :: p in OptionPositions(args, i) && Matches(args[p], "-compare"))
    decreases |args| - i
  {
    if i < |args| {
      var s1 := ApplyFlags(args[i], s);
      if !TakesValue(args, i) {
        ScanFlags(args, i + 1, s1, fromString);
      } else {
        var s2 := ApplyValue(args[i], args[i + 1], s1, fromString).value;
        ScanFlags(args, i + 2, s2, fromString);
      }
    }
  }

  /** Scanning stops at a token starting with '-' exactly as if the input
      ended there, and resumes from the settings reached. */
  lemma {:induction false} ScanAppend(args: seq<string>, tail: seq<string>, i: nat, s: MirrorSettings, fromString: string -> Option<Uri>)
    requires i <= |args|
    requires |tail| > 0 && IsDashed(tail[0])
    ensures Scan(args + tail, i, s, fromString) ==
              match Scan(args, i, s, fromString)
              case Thrown(e) => Thrown(e)
              case Returned(s') => Scan(args + tail, |args|, s', fromString)
    decreases |args| - i
  {
    var all := args + tail;
    if i < |args| {
      assert all[i] == args[i];
      assert TakesValue(all, i) == TakesValue(args, i) by {
        if i + 1 < |args| { assert all[i + 1] == args[i + 1]; } else { assert all[i + 1] == tail[0]; }
      }
      var s1 := ApplyFlags(args[i], s);
      if !TakesValue(args, i) {
        ScanAppend(args, tail, i + 1, s1, fromString);
      } else {
        assert all[i + 1] == args[i + 1];
        match ApplyValue(args[i], args[i + 1], s1, fromString) {
          case Thrown(e) =>
          case Returned(s2) => ScanAppend(args, tail, i + 2, s2, fromString);
        }
      }
    }
  }

  /** Appending an option and a value to any arguments applies that option
      to whatever the arguments produced. */
  lemma AppendOption(args: seq<string>, option: string, v: string, fromString: string -> Option<Uri>)
    requires IsDashed(option) && !IsDashed(v)
    ensures Parse(Some(args + [option, v]), fromString) ==
              match Parse(Some(args), fromString)
              case Thrown(e) => Thrown(e)
              case Returned(s) => ApplyValue(option, v, ApplyFlags(option, s), fromString)
  {
    ScanAppend(args, [option, v], 0, Defaults, fromString);
    var all := args + [option, v];
    assert all[|args|] == option && all[|args| + 1] == v;
    assert TakesValue(all, |args|);
  }

  /** A later `-source v` overrides anything earlier: appending it to any
      arguments fails only where those arguments fail, and otherwise leaves
      the source location at v. */
  lemma LaterSourceOverrides(args: seq<string>, v: string, fromString: string -> Option<Uri>)
    requires !IsDashed(v) && fromString(v).Some?
    ensures Parse(Some(args + ["-source", v]), fromString).Returned? <==> Parse(Some(args), fromString).Returned?
    ensures Parse(Some(args + ["-source", v]), fromString).Returned? ==>
              Parse(Some(args + ["-source", v]), fromString).value.sourceLocation == fromString(v)
  {
    AppendOption(args, "-source", v, fromString);
    OptionLiterals();
  }

  /** A later `-comparator v` overrides the comparator id the same way. */
  lemma LaterComparatorOverrides(args: seq<string>, v: string, fromString: string -> Option<Uri>)
    requires !IsDashed(v)
    ensures Parse(Some(args + ["-comparator", v]), fromString).Returned? <==> Parse(Some(args), fromString).Returned?
    ensures Parse(Some(args + ["-comparator", v]), fromString).Returned? ==>
              Parse(Some(args + ["-comparator", v]), fromString).value.comparatorId == v
  {
    AppendOption(args, "-comparator", v, fromString);
    OptionLiterals();
  }

  // ---------------------------------------------------------------------
  // The check at the start of setupRepositories

  /** The two locations a mirror run needs. */
  datatype MirrorRun = MirrorRun(source: Uri, destination: Uri, settings: MirrorSettings)

  /** setupRepositories refuses to start unless both locations were given. */
  function SetupRepositories(s: MirrorSettings): (r: Outcome<MirrorRun>)
    ensures r.Returned? <==> s.sourceLocation.Some? && s.destinationLocation.Some?
    ensures r.Thrown? ==> r.exception == IllegalState(Localized("exception_needSourceDestination", []))
    ensures r.Returned? ==> Some(r.value.source) == s.sourceLocation && Some(r.value.destination) == s.destinationLocation
  {
    if s.destinationLocation.None? || s.sourceLocation.None? then
      Thrown(IllegalState(Localized("exception_needSourceDestination", [])))
    else
      Returned(MirrorRun(s.sourceLocation.value, s.destinationLocation.value, s))
  }

  /** The argument handling of start: parse, then check the locations. A
      parse exception propagates unchanged; otherwise the run proceeds
      exactly when both locations were given, with the parsed settings. */
  function Start(args: Option<seq<string>>, fromString: string -> Option<Uri>): (r: Outcome<MirrorRun>)
    ensures Parse(args, fromString).Thrown? ==> r == Thrown(Parse(args, fromString).exception)
    ensures Parse(args, fromString).Returned? ==>
              var s := Parse(args, fromString).value;
              && (r.Returned? <==> s.sourceLocation.Some? && s.destinationLocation.Some?)
              && (r.Returned? ==> r.value.settings == s && Some(r.value.source) == s.sourceLocation
                                  && Some(r.value.destination) == s.destinationLocation)
              && (r.Thrown? ==> r.exception == IllegalState(Localized("exception_needSourceDestination", [])))
  {
    match Parse(args, fromString)
    case Thrown(e) => Thrown(e)
    case Returned(s) => SetupRepositories(s)
  }

  /** With no arguments there is nothing to mirror: the run is refused. */
  lemma NoArgumentsIsRefused(fromString: string -> Option<Uri>)
    ensures Start(None, fromString) == Thrown(IllegalState(Localized("exception_needSourceDestination", [])))
    ensures Start(Some([]), fromString) == Start(None, fromString)
  {
  }

  /** A run with well-formed `-source` and `-destination` values is accepted,
      whatever flags come before them. */
  lemma SourceAndDestinationSuffice(args: seq<string>, src: string, dst: string, fromString: string -> Option<Uri>)
    requires !IsDashed(src) && !IsDashed(dst)
    requires fromString(src).Some? && fromString(dst).Some?
    requires Parse(Some(args), fromString).Returned?
    ensures Start(Some(args + ["-source", src] + ["-destination", dst]), fromString).Returned?
  {
    LaterSourceOverrides(args, src, fromString);
    var front := args + ["-source", src];
    AppendOption(front, "-destination", dst, fromString);
    OptionLiterals();
  }
}

=== FILE: missing_action.dfy ===
/** The action substituted for an action id that no touchpoint resolves:
    executing it always fails, naming the id and the version range if one
    was given; undoing it always succeeds, so a rollback never gets stuck on
    it. */
module MissingActions {
  import opened Common
  import opened Versions

  datatype MissingAction = MissingAction(actionId: string, versionRange: Option<VersionRange>)

  /** The constructor: the action remembers both arguments as given. */
  function NewMissingAction(actionId: string, versionRange: Option<VersionRange>): (a: MissingAction)
    ensures GetActionId(a) == actionId && GetVersionRange(a) == versionRange
  {
    MissingAction(actionId, versionRange)
  }

  function GetActionId(a: MissingAction): string {
    a.actionId
  }

  function GetVersionRange(a: MissingAction): Option<VersionRange> {
    a.versionRange
  }

  /** What the failure names: the id, followed by "/" and the range when a
      range was given. */
  function Detail(a: MissingAction): (r: string)
    ensures StartsWith(r, a.actionId)
    ensures r == a.actionId <==> a.versionRange.None?
    ensures a.versionRange.Some? ==> r[|a.actionId|..] == "/" + a.versionRange.value.text
  {
    a.actionId + (if a.versionRange.None? then "" else "/" + a.versionRange.value.text)
  }

  /** For a given id, the detail determines the version range. */
  lemma DetailDeterminesRange(a: MissingAction, b: MissingAction)
    requires a.actionId == b.actionId && Detail(a) == Detail(b)
    ensures a == b
  {
    if a.versionRange.Some? && b.versionRange.Some? {
      assert "/" + a.versionRange.value.text == "/" + b.versionRange.value.text;
      assert a.versionRange.value.text == ("/" + a.versionRange.value.text)[1..];
    }
  }

  /** execute never returns: it throws an IllegalArgumentException whose
      action_not_found message is bound to the detail. */
  function Execute<P>(a: MissingAction, parameters: P): (r: Outcome<Status>)
    ensures r.Thrown?
    ensures r.exception == IllegalArgument(Localized("action_not_found", [Detail(a)]))
  {
    Thrown(IllegalArgument(Localized("action_not_found", [Detail(a)])))
  }

  /** undo succeeds whatever the parameters. */
  function Undo<P>(a: MissingAction, parameters: P): (r: Status)
    ensures r == Ok
  {
    Ok
  }
}

=== FILE: native_touchpoint.dfy ===
/** The native touchpoint: the phases it takes part in, the three actions it
    resolves (collect, unzip, chmod), the artifact requests collect builds,
    and the install folder it publishes when a phase starts. The download
    cache, the Zip and Permissions helpers and the service lookups are
    described by an Environment value; their effects are recorded, not
    performed. */
module NativeTouchpoint {
  import opened Common
  import opened Versions
  import opened Metadata

  /** The plug-in id used in the statuses this touchpoint reports. */
  const ID := "org.eclipse.equinox.p2.touchpoint.natives"

  /** Profile.PROP_INSTALL_FOLDER. */
  const PROP_INSTALL_FOLDER := "org.eclipse.equinox.p2.installFolder"

  /** The touchpoint parameter the install folder is published under. */
  const INSTALL_FOLDER := "installFolder"

  /** The special unzip source meaning "the unit's first artifact". */
  const ARTIFACT_SOURCE := "@artifact"

  const SupportedPhases: set<string> := {"collect", "install", "uninstall"}

  datatype TouchpointType = TouchpointType(id: string, version: Version)

  /** A request to mirror one artifact into the download cache. */
  datatype ArtifactRequest = MirrorRequest(key: ArtifactKey, destination: string)

  /** What the environment offers: the download cache (its location, whether
      it can be used as a file repository, and where it keeps each artifact,
      None for an artifact it does not hold) and which files exist. */
  datatype Environment = Environment(
    cacheLocation: string,
    cacheWritable: bool,
    artifactFile: ArtifactKey -> Option<string>,
    fileExists: string -> bool)

  /** The action parameters the native actions read or write. */
  datatype Parameters = Parameters(
    profile: Profile,
    operand: Operand,
    iu: Option<InstallableUnit>,
    artifactRequests: seq<seq<ArtifactRequest>>,
    source: string,
    target: string,
    targetDir: string,
    targetFile: string,
    permissions: string)

  /** A file-system change an action asks for. The chmod request carries no
      permissions: the action reads them but passes null on. */
  datatype Effect =
    | Unzip(source: string, target: string)
    | Chmod(targetDir: string, targetFile: string)

  /** What an action returned: its status, the parameters afterwards, and the
      file-system changes it requested. */
  datatype Execution = Execution(status: Status, parameters: Parameters, effects: seq<Effect>)

  datatype NativeAction = CollectAction | UnzipAction | ChmodAction

  /** supports: exactly the collect, install and uninstall phases. */
  function Supports(phaseId: string): (r: bool)
    ensures r <==> phaseId == "collect" || phaseId == "install" || phaseId == "uninstall"
  {
    phaseId in SupportedPhases
  }

  /** getAction: the action for "collect", "unzip" or "chmod", null otherwise. */
  function GetAction(actionId: string): (r: Option<NativeAction>)
    ensures r.Some? <==> actionId == "collect" || actionId == "unzip" || actionId == "chmod"
  {
    if actionId == "collect" then Some(CollectAction)
    else if actionId == "unzip" then Some(UnzipAction)
    else if actionId == "chmod" then Some(ChmodAction)
    else None
  }

  /** The id each action is registered under. */
  function ActionId(a: NativeAction): string {
    match a
    case CollectAction => "collect"
    case UnzipAction => "unzip"
    case ChmodAction => "chmod"
  }

  /** getAction and ActionId are inverse: every action is found under its
      own id and under no other. */
  lemma GetActionRoundTrip(a: NativeAction, actionId: string)
    ensures GetAction(ActionId(a)) == Some(a)
    ensures GetAction(actionId) == Some(a) ==> actionId == ActionId(a)
  {
  }

  /** getTouchpointType: ("native", 1.0.0). */
  function GetTouchpointType(): (t: TouchpointType)
    ensures t.id == "native" && Versions.ToString(t.version) == "1.0.0"
  {
    TouchpointType("native", Version(1, 0, 0, ""))
  }

  /** The IllegalArgumentException getDownloadCacheRepo throws when the
      download cache cannot be used as a file repository. */
  function CacheNotWriteable(env: Environment): Exception {
    IllegalArgument(Literal("Agent download cache not writeable: " + env.cacheLocation))
  }

  /** collect: fetches the download cache first (which may throw), then one
      mirror request into the cache per artifact of the unit, in order; no
      requests when the unit's artifact array is null. */
  method Collect(iu: InstallableUnit, env: Environment) returns (r: Outcome<seq<ArtifactRequest>>)
    ensures r == CollectRequests(iu, env)
    ensures r.Thrown? ==> r.exception == CacheNotWriteable(env)
    ensures r.Returned? && iu.artifacts.None? ==> r.value == []
    ensures r.Returned? && iu.artifacts.Some? ==>
              && |r.value| == |iu.artifacts.value|
              && forall i :: 0 <= i < |r.value| ==> r.value[i] == MirrorRequest(iu.artifacts.value[i], env.cacheLocation)
  {
    if !env.cacheWritable {
      return Thrown(CacheNotWriteable(env));
    }
    var destination := env.cacheLocation;
    if iu.artifacts.None? {
      return Returned([]);
    }
    var toDownload := iu.artifacts.value;
    var requests: seq<ArtifactRequest> := [];
    var count := 0;
    for i := 0 to |toDownload|
      invariant count == i == |requests|
      invariant forall t :: 0 <= t < i ==> requests[t] == MirrorRequest(toDownload[t], destination)
    {
      requests := requests + [MirrorRequest(toDownload[i], destination)];
      count := count + 1;
    }
    // requests.length == count always holds, so the trimming copy is never made
    assert requests == seq(|toDownload|, i requires 0 <= i < |toDownload| => MirrorRequest(toDownload[i], destination));
    r := Returned(requests);
  }

  /** The artifacts of a unit, an absent array read as none. */
  function ArtifactsOf(iu: InstallableUnit): seq<ArtifactKey> {
    if iu.artifacts.None? then [] else iu.artifacts.value
  }

  /** The requests collect builds, as a function. */
  function CollectRequests(iu: InstallableUnit, env: Environment): (r: Outcome<seq<ArtifactRequest>>)
    ensures r.Thrown? <==> !env.cacheWritable
    ensures r.Returned? ==> |r.value| == |ArtifactsOf(iu)|
    ensures r.Returned? ==> forall i :: 0 <= i < |r.value| ==> r.value[i].key == ArtifactsOf(iu)[i] && r.value[i].destination == env.cacheLocation
  {
    if !env.cacheWritable then Thrown(CacheNotWriteable(env))
    else
      var a := ArtifactsOf(iu);
      Returned(seq(|a|, i requires 0 <= i < |a| => MirrorRequest(a[i], env.cacheLocation)))
  }

  /** The unzip action's execute: it leaves the parameters alone, unzips at
      most one file, always into the target, and throws only for a missing
      unit or cached file, or an unusable cache. */
  function ExecuteUnzip(p: Parameters, env: Environment): (r: Outcome<Execution>)
    ensures r.Thrown? ==> r.exception == NullPointer || r.exception == CacheNotWriteable(env)
    ensures r.Thrown? ==> p.source == ARTIFACT_SOURCE
    ensures r.Returned? ==> r.value.parameters == p && |r.value.effects| <= 1
    ensures r.Returned? ==> forall e :: e in r.value.effects ==> e.Unzip? && e.target == p.target
    ensures r.Returned? && r.value.status.Error? ==> r.value.effects == []
  {
    if p.source == ARTIFACT_SOURCE then
      match p.iu
      case None => Thrown(NullPointer)
      case Some(iu) =>
        if iu.artifacts.None? || |iu.artifacts.value| == 0 then
          Returned(Execution(Ok, p, []))
        else if !env.cacheWritable then
          Thrown(CacheNotWriteable(env))
        else
          match env.artifactFile(iu.artifacts.value[0])
          case None => Thrown(NullPointer)  // exists() on a null file
          case Some(fileLocation) =>
            if !env.fileExists(fileLocation) then
              Returned(Execution(Error(ID, "The file is not available" + fileLocation), p, []))
            else
              Returned(Execution(Ok, p, [Unzip(fileLocation, p.target)]))
    else
      Returned(Execution(Ok, p, [Unzip(p.source, p.target)]))
  }

  /** execute of a native action. Only collect changes the parameters, and
      it only appends to the artifact requests; chmod always succeeds. */
  function Execute(a: NativeAction, p: Parameters, env: Environment): (r: Outcome<Execution>)
    ensures r.Thrown? ==> r.exception == NullPointer || r.exception == CacheNotWriteable(env)
    ensures r.Returned? && a != CollectAction ==> r.value.parameters == p
    ensures r.Returned? && a == CollectAction ==>
              && r.value.parameters == p.(artifactRequests := r.value.parameters.artifactRequests)
              && |r.value.parameters.artifactRequests| == |p.artifactRequests| + 1
              && r.value.parameters.artifactRequests[..|p.artifactRequests|] == p.artifactRequests
    ensures a == ChmodAction ==> r.Returned? && r.value.status == Ok
  {
    match a
    case CollectAction =>
      // collect fetches the download cache before it reads the unit
      if !env.cacheWritable then Thrown(CacheNotWriteable(env))
      else
        (match p.operand.second
         case None => Thrown(NullPointer)
         case Some(iu) =>
           match CollectRequests(iu, env)
           case Thrown(e) => Thrown(e)
           case Returned(requests) =>
             Returned(Execution(Ok, p.(artifactRequests := p.artifactRequests + [requests]), [])))
    case UnzipAction => ExecuteUnzip(p, env)
    case ChmodAction => Returned(Execution(Ok, p, [Chmod(p.targetDir, p.targetFile)]))
  }

  /** undo of a native action: nothing is undone, and OK is returned. */
  function Undo(a: NativeAction, p: Parameters): (r: Execution)
    ensures r.status == Ok && r.parameters == p && r.effects == []
  {
    Execution(Ok, p, [])
  }

  /** collect's execute appends exactly one element, the requests for the
      added unit's artifacts, to artifactRequests, and returns OK. */
  lemma CollectAppendsOneRequestArray(p: Parameters, env: Environment)
    requires p.operand.second.Some? && env.cacheWritable
    ensures var r := Execute(CollectAction, p, env);
      && r.Returned? && r.value.status == Ok && r.value.effects == []
      && |r.value.parameters.artifactRequests| == |p.artifactRequests| + 1
      && r.value.parameters.artifactRequests[..|p.artifactRequests|] == p.artifactRequests
      && |r.value.parameters.artifactRequests[|p.artifactRequests|]| == |ArtifactsOf(p.operand.second.value)|
      && (forall i :: 0 <= i < |ArtifactsOf(p.operand.second.value)| ==>
            r.value.parameters.artifactRequests[|p.artifactRequests|][i] == MirrorRequest(ArtifactsOf(p.operand.second.value)[i], env.cacheLocation))
      && r.value.parameters == p.(artifactRequests := r.value.parameters.artifactRequests)
  {
    var r := Execute(CollectAction, p, env);
    assert r.value.parameters.artifactRequests[..|p.artifactRequests|] == p.artifactRequests;
  }

  /** collect's execute fails exactly when the download cache is unusable or
      the operand has no added unit; the cache is consulted first. */
  lemma CollectFailures(p: Parameters, env: Environment)
    ensures Execute(CollectAction, p, env).Thrown? <==> !env.cacheWritable || p.operand.second.None?
    ensures !env.cacheWritable ==> Execute(CollectAction, p, env) == Thrown(CacheNotWriteable(env))
    ensures env.cacheWritable && p.operand.second.None? ==> Execute(CollectAction, p, env) == Thrown(NullPointer)
  {
  }

  /** chmod reads the permissions parameter but does not use it: the effect
      is the same whatever permissions are given. */
  lemma ChmodIgnoresPermissions(p: Parameters, env: Environment, permissions: string)
    ensures Execute(ChmodAction, p.(permissions := permissions), env).value.effects == Execute(ChmodAction, p, env).value.effects
    ensures Execute(ChmodAction, p, env).value.effects == [Chmod(p.targetDir, p.targetFile)]
  {
  }

  /** unzip of "@artifact": OK without unzipping when the unit has no
      artifacts; the download cache error when the cache is unusable; a
      NullPointerException when the cache does not hold the
      first artifact; an ERROR naming the cached file when it does not
      exist; otherwise the cached file of the first artifact is unzipped
      into the target. */
  lemma UnzipArtifactCases(p: Parameters, env: Environment)
    requires p.source == ARTIFACT_SOURCE && p.iu.Some?
    ensures var iu := p.iu.value;
      var r := ExecuteUnzip(p, env);
      && (|ArtifactsOf(iu)| == 0 ==> r == Returned(Execution(Ok, p, [])))
      && (|ArtifactsOf(iu)| > 0 && !env.cacheWritable ==> r == Thrown(CacheNotWriteable(env)))
      && (|ArtifactsOf(iu)| > 0 && env.cacheWritable ==>
            (r.Thrown? <==> env.artifactFile(ArtifactsOf(iu)[0]).None?)
            && (r.Thrown? ==> r.exception == NullPointer))
      && (|ArtifactsOf(iu)| > 0 && env.cacheWritable && env.artifactFile(ArtifactsOf(iu)[0]).Some? ==>
            var file := env.artifactFile(ArtifactsOf(iu)[0]).value;
            && r.Returned?
            && (r.value.status == Ok <==> env.fileExists(file))
            && (r.value.status.Error? ==> r.value.effects == [] && r.value.status.message == "The file is not available" + file)
            && (r.value.status == Ok ==> r.value.effects == [Unzip(file, p.target)]))
  {
  }

  /** Every native action's undo returns OK, after any execute outcome. */
  lemma UndoAlwaysOk(a: NativeAction, p: Parameters, env: Environment)
    ensures Execute(a, p, env).Returned? ==> Undo(a, Execute(a, p, env).value.parameters).status == Ok
    ensures Undo(a, p).status == Ok
  {
  }

  /** initializePhase: publishes the profile's install folder (null when it
      is unset) under "installFolder", keeps every other parameter, and
      returns a null status. */
  function InitializePhase(profile: Profile, phaseId: string, touchpointParameters: map<string, Option<string>>)
    : (r: (Option<Status>, map<string, Option<string>>))
    ensures r.0 == None
    ensures INSTALL_FOLDER in r.1 && r.1[INSTALL_FOLDER] == GetValue(profile, PROP_INSTALL_FOLDER)
    ensures r.1.Keys == touchpointParameters.Keys + {INSTALL_FOLDER}
    ensures forall k :: k in touchpointParameters && k != INSTALL_FOLDER ==> r.1[k] == touchpointParameters[k]
  {
    (None, touchpointParameters[INSTALL_FOLDER := GetValue(profile, PROP_INSTALL_FOLDER)])
  }
}

=== FILE: optimizer.dfy ===
/** The jar delta optimizer's candidate selection: artifact keys are grouped
    by their versionless identity, each group is sorted newest-first, the
    `width` newest keys of every group with at least two keys are processed,
    and for each processed canonical descriptor up to `depth` jar delta
    descriptors are produced against its newest complete predecessors.
    Streams, the processing-step pipeline and logging are not modelled. */
module JarDeltaOptimizer {
  import opened Common
  import opened Versions
  import opened Metadata
  import opened Sorting

  const JAR_DELTA_FORMAT := "jarDelta"
  const JAR_DELTA_PATCH_STEP := "org.eclipse.equinox.p2.processing.JarDeltaPatchStep"
  /** IArtifactDescriptor.FORMAT, the property naming a descriptor's format. */
  const FORMAT := "format"

  datatype ProcessingStepDescriptor = ProcessingStepDescriptor(processorId: string, data: string, required: bool)

  datatype ArtifactDescriptor = ArtifactDescriptor(
    key: ArtifactKey,
    steps: seq<ProcessingStepDescriptor>,
    properties: map<string, string>)

  /** The artifact repository, reduced to the descriptors stored per key. */
  datatype Repository = Repository(descriptors: map<ArtifactKey, seq<ArtifactDescriptor>>)

  /** getArtifactDescriptors: no descriptors for a key the repository lacks. */
  function DescriptorsOf(repo: Repository, k: ArtifactKey): seq<ArtifactDescriptor> {
    if k in repo.descriptors then repo.descriptors[k] else []
  }

  /** Every descriptor is filed under its own key. */
  predicate WellFormed(repo: Repository) {
    forall k, d :: k in repo.descriptors && d in repo.descriptors[k] ==> d.key == k
  }

  /** A canonical descriptor has no processing steps. */
  predicate IsCanonical(d: ArtifactDescriptor) {
    |d.steps| == 0
  }

  /** An optimized descriptor has exactly one step and the jarDelta format. */
  predicate IsOptimized(d: ArtifactDescriptor) {
    |d.steps| == 1 && FORMAT in d.properties && d.properties[FORMAT] == JAR_DELTA_FORMAT
  }

  /** No descriptor is both canonical and optimized: a jar delta carries its
      patch step. */
  lemma CanonicalNotOptimized(d: ArtifactDescriptor)
    ensures IsCanonical(d) ==> !IsOptimized(d)
    ensures IsOptimized(d) ==> !IsCanonical(d) && !TriggersCall(d)
  {
  }

  function KeyVersion(k: ArtifactKey): Version {
    k.version
  }

  function DescriptorVersion(d: ArtifactDescriptor): Version {
    d.key.version
  }

  // ---------------------------------------------------------------------
  // Grouping related artifact keys

  /** The key with its version replaced by the empty version. */
  function Versionless(k: ArtifactKey): ArtifactKey {
    ArtifactKey(k.classifier, k.id, Versions.Empty)
  }

  /** Two keys are related exactly when they agree on classifier and id;
      the versionless key is related to its key and is its own versionless
      key. */
  lemma VersionlessRelates(a: ArtifactKey, b: ArtifactKey)
    ensures Versionless(a) == Versionless(b) <==> a.classifier == b.classifier && a.id == b.id
    ensures Versionless(Versionless(a)) == Versionless(a)
    ensures Versionless(a).version == Versions.Empty
  {
  }

  /** The distinct versionless keys of `keys`, in order of first appearance:
      one per group of related keys. */
  function FreeKeys(keys: seq<ArtifactKey>): seq<ArtifactKey>
    decreases |keys|
  {
    if |keys| == 0 then []
    else
      var f := FreeKeys(keys[..|keys| - 1]);
      var v := Versionless(keys[|keys| - 1]);
      if v in f then f else f + [v]
  }

  /** The keys of `keys` whose versionless key is `free`, in input order. */
  function Related(keys: seq<ArtifactKey>, free: ArtifactKey): seq<ArtifactKey>
    decreases |keys|
  {
    if |keys| == 0 then []
    else
      var last := keys[|keys| - 1];
      Related(keys[..|keys| - 1], free) + (if Versionless(last) == free then [last] else [])
  }

  /** The unsorted groups, one per free key. */
  function GroupsOf(keys: seq<ArtifactKey>): seq<seq<ArtifactKey>> {
    var f := FreeKeys(keys);
    seq(|f|, i requires 0 <= i < |f| => Related(keys, f[i]))
  }

  function Flatten<T>(gs: seq<seq<T>>): seq<T>
    decreases |gs|
  {
    if |gs| == 0 then [] else Flatten(gs[..|gs| - 1]) + gs[|gs| - 1]
  }

  /** An element of a group is an element of the flattened groups. */
  lemma {:induction false} FlattenHas<T>(gs: seq<seq<T>>, g: nat, x: T)
    requires g < |gs| && x in gs[g]
    ensures x in Flatten(gs)
    decreases |gs|
  {
    if g < |gs| - 1 {
      FlattenHas(gs[..|gs| - 1], g, x);
    }
  }

  predicate Distinct<T(==)>(s: seq<T>) {
    forall i, j :: 0 <= i < j < |s| ==> s[i] != s[j]
  }

  function VersionlessKeys(keys: seq<ArtifactKey>): set<ArtifactKey> {
    set k | k in keys :: Versionless(k)
  }

  /** The free keys are exactly the versionless keys of the input. */
  lemma {:induction false} FreeKeysSet(keys: seq<ArtifactKey>)
    ensures (set f | f in FreeKeys(keys)) == VersionlessKeys(keys)
    decreases |keys|
  {
    if |keys| > 0 {
      var init := keys[..|keys| - 1];
      var k := keys[|keys| - 1];
      FreeKeysSet(init);
      assert forall x :: x in keys <==> x in init || x == k by {
        assert keys == init + [k];
      }
      assert VersionlessKeys(keys) == VersionlessKeys(init) + {Versionless(k)};
    }
  }

  /** No versionless key is listed twice. */
  lemma {:induction false} FreeKeysDistinct(keys: seq<ArtifactKey>)
    ensures Distinct(FreeKeys(keys))
    decreases |keys|
  {
    if |keys| > 0 {
      var init := keys[..|keys| - 1];
      var v := Versionless(keys[|keys| - 1]);
      var f := FreeKeys(init);
      FreeKeysDistinct(init);
      if v !in f {
        assert FreeKeys(keys) == f + [v];
        assert forall i :: 0 <= i < |f| ==> (f + [v])[i] == f[i] != v;
      }
    }
  }

  /** The free keys are exactly the versionless keys of the input, each once. */
  lemma FreeKeysSpec(keys: seq<ArtifactKey>)
    ensures (set f | f in FreeKeys(keys)) == VersionlessKeys(keys)
    ensures Distinct(FreeKeys(keys))
  {
    FreeKeysSet(keys);
    FreeKeysDistinct(keys);
  }

  lemma {:induction false} DistinctCardinality<T>(s: seq<T>)
    requires Distinct(s)
    ensures |set x | x in s| == |s|
    decreases |s|
  {
    if |s| > 0 {
      var init := s[..|s| - 1];
      DistinctCardinality(init);
      assert (set x | x in s) == (set x | x in init) + {s[|s| - 1]};
      assert s[|s| - 1] !in init;
    }
  }

  /** A group holds every key of its identity, as often as the input does,
      and nothing else. */
  lemma {:induction false} RelatedSpec(keys: seq<ArtifactKey>, free: ArtifactKey)
    ensures forall x :: multiset(Related(keys, free))[x] == if Versionless(x) == free then multiset(keys)[x] else 0
    decreases |keys|
  {
    if |keys| > 0 {
      var init := keys[..|keys| - 1];
      var k := keys[|keys| - 1];
      assert keys == init + [k];
      RelatedSpec(init, free);
      RelatedSnoc(init, k, free);
      assert multiset(keys) == multiset(init) + multiset{k};
    }
  }

  lemma FreeKeysSnoc(init: seq<ArtifactKey>, k: ArtifactKey)
    ensures FreeKeys(init + [k]) == if Versionless(k) in FreeKeys(init) then FreeKeys(init) else FreeKeys(init) + [Versionless(k)]
  {
    assert (init + [k])[..|init|] == init;
  }

  lemma RelatedSnoc(init: seq<ArtifactKey>, k: ArtifactKey, free: ArtifactKey)
    ensures Related(init + [k], free) == Related(init, free) + (if Versionless(k) == free then [k] else [])
  {
    assert (init + [k])[..|init|] == init;
  }

  /** A versionless key that is not among the free keys has an empty group. */
  lemma {:induction false} RelatedOfAbsent(keys: seq<ArtifactKey>, free: ArtifactKey)
    requires free !in FreeKeys(keys)
    ensures Related(keys, free) == []
    decreases |keys|
  {
    if |keys| > 0 {
      var init := keys[..|keys| - 1];
      assert keys == init + [keys[|keys| - 1]];
      FreeKeysSnoc(init, keys[|keys| - 1]);
      RelatedSnoc(init, keys[|keys| - 1], free);
      RelatedOfAbsent(init, free);
    }
  }

  lemma {:induction false} FlattenAppendToGroup<T>(gs: seq<seq<T>>, j: nat, x: T)
    requires j < |gs|
    ensures multiset(Flatten(gs[j := gs[j] + [x]])) == multiset(Flatten(gs)) + multiset{x}
    decreases |gs|
  {
    var gs' := gs[j := gs[j] + [x]];
    var n := |gs|;
    assert Flatten(gs) == Flatten(gs[..n - 1]) + gs[n - 1];
    assert Flatten(gs') == Flatten(gs'[..n - 1]) + gs'[n - 1];
    if j < n - 1 {
      assert gs'[..n - 1] == gs[..n - 1][j := gs[j] + [x]];
      assert gs'[n - 1] == gs[n - 1];
      FlattenAppendToGroup(gs[..n - 1], j, x);
    } else {
      assert gs'[..n - 1] == gs[..n - 1];
      assert gs'[n - 1] == gs[n - 1] + [x];
    }
  }

  lemma {:induction false} FlattenCongruent<T>(gs: seq<seq<T>>, hs: seq<seq<T>>)
    requires |gs| == |hs|
    requires forall i :: 0 <= i < |gs| ==> multiset(gs[i]) == multiset(hs[i])
    ensures multiset(Flatten(gs)) == multiset(Flatten(hs))
    decreases |gs|
  {
    if |gs| > 0 {
      FlattenCongruent(gs[..|gs| - 1], hs[..|hs| - 1]);
    }
  }

  /** A last key of a known identity joins the group of that identity. */
  lemma GroupsOfLastExisting(keys: seq<ArtifactKey>)
    requires |keys| > 0 && Versionless(keys[|keys| - 1]) in FreeKeys(keys[..|keys| - 1])
    ensures multiset(Flatten(GroupsOf(keys))) == multiset(Flatten(GroupsOf(keys[..|keys| - 1]))) + multiset{keys[|keys| - 1]}
  {
    var init := keys[..|keys| - 1];
    var k := keys[|keys| - 1];
    var v := Versionless(k);
    var f := FreeKeys(init);
    var g0 := GroupsOf(init);
    var g1 := GroupsOf(keys);
    assert FreeKeys(keys) == f;
    FreeKeysSpec(init);
    var j :| 0 <= j < |f| && f[j] == v;
    assert g1 == g0[j := g0[j] + [k]] by {
      forall i | 0 <= i < |g1| ensures g1[i] == g0[j := g0[j] + [k]][i] {
        assert g1[i] == Related(keys, f[i]) == Related(init, f[i]) + (if v == f[i] then [k] else []);
        if i != j { assert f[i] != v; }
      }
    }
    FlattenAppendToGroup(g0, j, k);
  }

  /** A last key of a new identity opens a group of its own, at the end. */
  lemma GroupsOfLastNew(keys: seq<ArtifactKey>)
    requires |keys| > 0 && Versionless(keys[|keys| - 1]) !in FreeKeys(keys[..|keys| - 1])
    ensures multiset(Flatten(GroupsOf(keys))) == multiset(Flatten(GroupsOf(keys[..|keys| - 1]))) + multiset{keys[|keys| - 1]}
  {
    var init := keys[..|keys| - 1];
    var k := keys[|keys| - 1];
    var v := Versionless(k);
    var f := FreeKeys(init);
    var g0 := GroupsOf(init);
    var g1 := GroupsOf(keys);
    assert FreeKeys(keys) == f + [v];
    RelatedOfAbsent(init, v);
    assert |g1| == |g0| + 1;
    assert g1[|g0|] == Related(keys, v) == [k];
    assert g1 == g0 + [[k]] by {
      forall i | 0 <= i < |g0| ensures g1[i] == g0[i] {
        assert f[i] != v;
        assert g1[i] == Related(keys, f[i]) == Related(init, f[i]);
      }
    }
    assert g1[..|g1| - 1] == g0;
  }

  /** The last key belongs to exactly one group. */
  lemma GroupsOfLast(keys: seq<ArtifactKey>)
    requires |keys| > 0
    ensures multiset(Flatten(GroupsOf(keys))) == multiset(Flatten(GroupsOf(keys[..|keys| - 1]))) + multiset{keys[|keys| - 1]}
  {
    if Versionless(keys[|keys| - 1]) in FreeKeys(keys[..|keys| - 1]) {
      GroupsOfLastExisting(keys);
    } else {
      GroupsOfLastNew(keys);
    }
  }

  lemma MultisetOfLast<T>(s: seq<T>)
    requires |s| > 0
    ensures multiset(s) == multiset(s[..|s| - 1]) + multiset{s[|s| - 1]}
  {
    assert s == s[..|s| - 1] + [s[|s| - 1]];
  }

  /** Grouping is a partition: the groups together hold exactly the input keys. */
  lemma {:induction false} GroupsPartition(keys: seq<ArtifactKey>)
    ensures multiset(Flatten(GroupsOf(keys))) == multiset(keys)
    decreases |keys|
  {
    if |keys| > 0 {
      GroupsPartition(keys[..|keys| - 1]);
      GroupsOfLast(keys);
      MultisetOfLast(keys);
    }
  }

  /** One sorted group: non-empty, of one identity, holding every key of that
      identity as often as the input does. */
  lemma SortedGroupSpec(keys: seq<ArtifactKey>, free: ArtifactKey, group: seq<ArtifactKey>)
    requires free in FreeKeys(keys)
    requires multiset(group) == multiset(Related(keys, free))
    ensures |group| > 0 && Versionless(group[0]) == free
    ensures forall x :: x in group ==> Versionless(x) == free
    ensures forall k :: k in keys && Versionless(k) == free ==> multiset(group)[k] == multiset(keys)[k]
  {
    RelatedSpec(keys, free);
    FreeKeysSpec(keys);
    assert free in VersionlessKeys(keys);
    var k :| k in keys && Versionless(k) == free;
    assert multiset(group)[k] > 0;
    forall x | x in group ensures Versionless(x) == free {
      assert multiset(Related(keys, free))[x] > 0;
    }
  }

  /** Sorting each group of GroupsOf yields groups with the properties
      getSortedRelatedArtifactKeys promises. */
  lemma SortedGroupsSpec(keys: seq<ArtifactKey>, groups: map<ArtifactKey, seq<ArtifactKey>>, lists: seq<seq<ArtifactKey>>)
    requires forall f :: f in groups ==> groups[f] == Related(keys, f)
    requires |lists| == |FreeKeys(keys)|
    requires forall t :: 0 <= t < |lists| ==>
               && FreeKeys(keys)[t] in groups
               && multiset(lists[t]) == multiset(groups[FreeKeys(keys)[t]])
               && NewestFirst(lists[t], KeyVersion)
    ensures |lists| == |VersionlessKeys(keys)|
    ensures forall i :: 0 <= i < |lists| ==> |lists[i]| > 0 && NewestFirst(lists[i], KeyVersion)
    ensures forall i, x :: 0 <= i < |lists| && x in lists[i] ==> Versionless(x) == Versionless(lists[i][0])
    ensures forall i, j :: 0 <= i < j < |lists| ==> Versionless(lists[i][0]) != Versionless(lists[j][0])
    ensures forall i, k :: 0 <= i < |lists| && k in keys && Versionless(k) == Versionless(lists[i][0])
              ==> multiset(lists[i])[k] == multiset(keys)[k]
    ensures multiset(Flatten(lists)) == multiset(keys)
  {
    var order := FreeKeys(keys);
    FreeKeysSpec(keys);
    DistinctCardinality(order);
    forall i | 0 <= i < |lists|
      ensures |lists[i]| > 0 && Versionless(lists[i][0]) == order[i]
      ensures forall x :: x in lists[i] ==> Versionless(x) == order[i]
      ensures forall k :: k in keys && Versionless(k) == order[i] ==> multiset(lists[i])[k] == multiset(keys)[k]
    {
      SortedGroupSpec(keys, order[i], lists[i]);
    }
    GroupsPartition(keys);
    FlattenCongruent(lists, GroupsOf(keys));
  }

  /** `groups` maps each versionless key of `keys` to its related keys, and
      `order` lists the versionless keys in order of first appearance. */
  ghost predicate Collected(keys: seq<ArtifactKey>, groups: map<ArtifactKey, seq<ArtifactKey>>, order: seq<ArtifactKey>) {
    && order == FreeKeys(keys)
    && (forall f :: f in groups <==> f in order)
    && (forall f :: f in groups ==> groups[f] == Related(keys, f))
  }

  /** One step of the first loop keeps the order of first appearance. */
  lemma CollectStepOrder(init: seq<ArtifactKey>, k: ArtifactKey, groups: map<ArtifactKey, seq<ArtifactKey>>, order: seq<ArtifactKey>)
    requires Collected(init, groups, order)
    ensures var v := Versionless(k);
      var order' := if v in groups then order else order + [v];
      && order' == FreeKeys(init + [k])
      && forall f :: f in groups || f == v <==> f in order'
  {
    FreeKeysSnoc(init, k);
  }

  /** One step of the first loop keeps every list equal to its group. */
  lemma CollectStepGroups(init: seq<ArtifactKey>, k: ArtifactKey, groups: map<ArtifactKey, seq<ArtifactKey>>, order: seq<ArtifactKey>)
    requires Collected(init, groups, order)
    ensures var v := Versionless(k);
      var groups' := groups[v := (if v in groups then groups[v] else []) + [k]];
      forall f :: f in groups' ==> groups'[f] == Related(init + [k], f)
  {
    var v := Versionless(k);
    var groups' := groups[v := (if v in groups then groups[v] else []) + [k]];
    forall f | f in groups' ensures groups'[f] == Related(init + [k], f) {
      RelatedSnoc(init, k, f);
      if f == v && v !in groups {
        RelatedOfAbsent(init, v);
      }
    }
  }

  /** One step of the first loop keeps the map and the order collected. */
  lemma CollectStep(init: seq<ArtifactKey>, k: ArtifactKey, groups: map<ArtifactKey, seq<ArtifactKey>>, order: seq<ArtifactKey>)
    requires Collected(init, groups, order)
    ensures var v := Versionless(k);
      Collected(init + [k],
                groups[v := (if v in groups then groups[v] else []) + [k]],
                if v in groups then order else order + [v])
  {
    CollectStepOrder(init, k, groups, order);
    CollectStepGroups(init, k, groups, order);
  }

  /** The first loop of getSortedRelatedArtifactKeys: a map from each
      versionless key to its related keys in input order, together with the
      order in which the versionless keys first appear. */
  method CollectRelated(keys: seq<ArtifactKey>) returns (groups: map<ArtifactKey, seq<ArtifactKey>>, order: seq<ArtifactKey>)
    ensures order == FreeKeys(keys)
    ensures forall f :: f in groups <==> f in order
    ensures forall f :: f in groups ==> groups[f] == Related(keys, f)
  {
    groups := map[];
    order := [];
    for i := 0 to |keys|
      invariant Collected(keys[..i], groups, order)
    {
      var freeKey := Versionless(keys[i]);
      assert keys[..i + 1] == keys[..i] + [keys[i]];
      CollectStep(keys[..i], keys[i], groups, order);
      var values := [];
      if freeKey in groups {
        values := groups[freeKey];
      } else {
        order := order + [freeKey];
      }
      groups := groups[freeKey := values + [keys[i]]];
    }
    assert keys[..|keys|] == keys;
  }

  /** Arrays.sort with the negated key version comparator: newest first. */
  method SortKeys(keys: seq<ArtifactKey>) returns (sorted: seq<ArtifactKey>)
    ensures multiset(sorted) == multiset(keys)
    ensures NewestFirst(sorted, KeyVersion)
  {
    sorted := SortNewestFirst(keys, KeyVersion);
  }

  /** The second loop of getSortedRelatedArtifactKeys: each group, sorted. */
  method SortEach(groups: map<ArtifactKey, seq<ArtifactKey>>, order: seq<ArtifactKey>) returns (lists: seq<seq<ArtifactKey>>)
    requires forall f :: f in order ==> f in groups
    ensures |lists| == |order|
    ensures forall t :: 0 <= t < |lists| ==>
              && multiset(lists[t]) == multiset(groups[order[t]])
              && NewestFirst(lists[t], KeyVersion)
  {
    lists := [];
    for i := 0 to |order|
      invariant |lists| == i
      invariant forall t :: 0 <= t < i ==>
                  && multiset(lists[t]) == multiset(groups[order[t]])
                  && NewestFirst(lists[t], KeyVersion)
    {
      var sorted := SortKeys(groups[order[i]]);
      lists := lists + [sorted];
    }
  }

  /** getSortedRelatedArtifactKeys: groups the keys by versionless key and
      sorts each group newest-first. The groups come in order of first
      appearance here; the source's HashMap leaves their order unspecified. */
  method GetSortedRelatedArtifactKeys(keys: seq<ArtifactKey>) returns (lists: seq<seq<ArtifactKey>>)
    ensures |lists| == |VersionlessKeys(keys)|
    ensures forall i :: 0 <= i < |lists| ==> |lists[i]| > 0 && NewestFirst(lists[i], KeyVersion)
    ensures forall i, x :: 0 <= i < |lists| && x in lists[i] ==> Versionless(x) == Versionless(lists[i][0])
    ensures forall i, j :: 0 <= i < j < |lists| ==> Versionless(lists[i][0]) != Versionless(lists[j][0])
    ensures forall i, k :: 0 <= i < |lists| && k in keys && Versionless(k) == Versionless(lists[i][0])
              ==> multiset(lists[i])[k] == multiset(keys)[k]
    ensures multiset(Flatten(lists)) == multiset(keys)
  {
    var groups, order := CollectRelated(keys);
    lists := SortEach(groups, order);
    SortedGroupsSpec(keys, groups, lists);
  }

  // ---------------------------------------------------------------------
  // The width loop of run

  /** A request to optimize `key`, a member of group number `group`. */
  datatype Candidate = Candidate(group: nat, key: ArtifactKey)

  /** The keys of one group that run processes: none when the group has
      fewer than two keys, otherwise its first min(width, size) keys. */
  function Selection(group: seq<ArtifactKey>, width: int): (r: seq<ArtifactKey>)
    ensures |group| < 2 ==> r == []
    ensures |group| >= 2 ==> |r| == LoopCount(width, |group|)
    ensures r == group[..|r|]
  {
    if |group| < 2 then [] else group[..LoopCount(width, |group|)]
  }

  /** The processed keys of a newest-first group are the newest ones: none
      left unprocessed is newer than one processed. */
  lemma SelectionIsNewest(group: seq<ArtifactKey>, width: int)
    requires NewestFirst(group, KeyVersion)
    ensures forall i, j :: 0 <= i < |Selection(group, width)| <= j < |group|
              ==> AtLeast(group[i].version, group[j].version)
  {
  }

  function Tag(group: nat, ks: seq<ArtifactKey>): seq<Candidate> {
    seq(|ks|, j requires 0 <= j < |ks| => Candidate(group, ks[j]))
  }

  /** All candidates of run, group by group. */
  function PlanOf(lists: seq<seq<ArtifactKey>>, width: int): seq<Candidate>
    decreases |lists|
  {
    if |lists| == 0 then []
    else PlanOf(lists[..|lists| - 1], width) + Tag(|lists| - 1, Selection(lists[|lists| - 1], width))
  }

  /** A candidate is planned exactly when its key is selected from its group. */
  lemma {:induction false} PlanMembers(lists: seq<seq<ArtifactKey>>, width: int, c: Candidate)
    ensures c in PlanOf(lists, width) <==> c.group < |lists| && c.key in Selection(lists[c.group], width)
    decreases |lists|
  {
    if |lists| > 0 {
      var n := |lists| - 1;
      PlanMembers(lists[..n], width, c);
      var tail := Tag(n, Selection(lists[n], width));
      if c in tail {
        var j :| 0 <= j < |tail| && tail[j] == c;
      }
      if c.group == n && c.key in Selection(lists[n], width) {
        var j :| 0 <= j < |Selection(lists[n], width)| && Selection(lists[n], width)[j] == c.key;
        assert tail[j] == c;
      }
    }
  }

  /** The prefix of the plan for the first `n + 1` groups extends the plan
      for the first `n` with the candidates of group `n`. */
  lemma PlanOfNext(lists: seq<seq<ArtifactKey>>, width: int, n: nat)
    requires n < |lists|
    ensures PlanOf(lists[..n + 1], width) == PlanOf(lists[..n], width) + Tag(n, Selection(lists[n], width))
  {
    assert lists[..n + 1][..n] == lists[..n];
  }

  /** run's inner loop for group `i`: nothing for a group of fewer than two
      keys, otherwise the first min(width, size) keys. */
  method RunGroup(i: nat, group: seq<ArtifactKey>, width: int) returns (picked: seq<Candidate>)
    ensures picked == Tag(i, Selection(group, width))
  {
    picked := [];
    if |group| < 2 {
      return;
    }
    var minWidth := Min(width, |group|);
    var j := 0;
    while j < minWidth
      invariant 0 <= j <= LoopCount(width, |group|)
      invariant picked == Tag(i, group[..j])
    {
      assert group[..j + 1] == group[..j] + [group[j]];
      picked := picked + [Candidate(i, group[j])];
      j := j + 1;
    }
    assert j == LoopCount(width, |group|);
  }

  /** run's loops over the sorted groups: skip groups of fewer than two keys,
      and take the first min(width, size) keys of every other group. */
  method Run(lists: seq<seq<ArtifactKey>>, width: int) returns (plan: seq<Candidate>)
    ensures plan == PlanOf(lists, width)
    ensures forall c :: c in plan <==> c.group < |lists| && c.key in Selection(lists[c.group], width)
  {
    plan := [];
    for i := 0 to |lists|
      invariant plan == PlanOf(lists[..i], width)
    {
      PlanOfNext(lists, width, i);
      var picked := RunGroup(i, lists[i], width);
      plan := plan + picked;
    }
    assert lists[..|lists|] == lists;
    forall c ensures c in plan <==> c.group < |lists| && c.key in Selection(lists[c.group], width) {
      PlanMembers(lists, width, c);
    }
  }

  // ---------------------------------------------------------------------
  // Complete predecessors and the depth loop

  /** The first canonical descriptor of `ds`, if any: the inner loop of
      getSortedCompletePredecessors, which stops at the first hit. */
  function FirstCanonical(ds: seq<ArtifactDescriptor>): (r: Option<ArtifactDescriptor>)
    ensures r.None? <==> forall j :: 0 <= j < |ds| ==> !IsCanonical(ds[j])
    ensures r.Some? ==> exists j :: 0 <= j < |ds| && ds[j] == r.value && IsCanonical(ds[j])
                          && forall j' :: 0 <= j' < j ==> !IsCanonical(ds[j'])
    decreases |ds|
  {
    if |ds| == 0 then None
    else if IsCanonical(ds[0]) then Some(ds[0])
    else
      var r := FirstCanonical(ds[1..]);
      assert forall j :: 0 < j < |ds| ==> ds[j] == ds[1..][j - 1];
      r
  }

  /** The unsorted complete predecessors: walking the related keys in order,
      skipping `key` itself, at most the first canonical descriptor of each. */
  function CompletePredecessors(key: ArtifactKey, related: seq<ArtifactKey>, repo: Repository): (r: seq<ArtifactDescriptor>)
    ensures |r| <= |related|
    ensures key in related ==> |r| < |related|
    ensures forall d :: d in r ==> IsCanonical(d)
    decreases |related|
  {
    if |related| == 0 then []
    else
      var init := related[..|related| - 1];
      var last := related[|related| - 1];
      assert related == init + [last];
      var prefix := CompletePredecessors(key, init, repo);
      if last == key then prefix
      else
        match FirstCanonical(DescriptorsOf(repo, last))
        case None => prefix
        case Some(d) => prefix + [d]
  }

  /** `k` contributes `d` to the complete predecessors of `key`. */
  predicate Contributes(key: ArtifactKey, repo: Repository, k: ArtifactKey, d: ArtifactDescriptor) {
    k != key && FirstCanonical(DescriptorsOf(repo, k)) == Some(d)
  }

  /** Walking one more related key adds at most its first canonical descriptor. */
  lemma CompletePredecessorsSnoc(key: ArtifactKey, init: seq<ArtifactKey>, last: ArtifactKey, repo: Repository)
    ensures CompletePredecessors(key, init + [last], repo) ==
              if last == key then CompletePredecessors(key, init, repo)
              else match FirstCanonical(DescriptorsOf(repo, last))
                case None => CompletePredecessors(key, init, repo)
                case Some(d) => CompletePredecessors(key, init, repo) + [d]
  {
    assert (init + [last])[..|init|] == init;
  }

  /** A descriptor is a complete predecessor exactly when it is the first
      canonical descriptor of some related key other than `key`. */
  lemma {:induction false} PredecessorMembers(key: ArtifactKey, related: seq<ArtifactKey>, repo: Repository, d: ArtifactDescriptor)
    ensures d in CompletePredecessors(key, related, repo) <==> exists k :: k in related && Contributes(key, repo, k, d)
    decreases |related|
  {
    if |related| > 0 {
      var init := related[..|related| - 1];
      var last := related[|related| - 1];
      assert related == init + [last];
      PredecessorMembers(key, init, repo, d);
      var prefix := CompletePredecessors(key, init, repo);
      var full := CompletePredecessors(key, related, repo);
      assert d in full <==> d in prefix || Contributes(key, repo, last, d);
      assert (exists k :: k in related && Contributes(key, repo, k, d))
         <==> (exists k :: k in init && Contributes(key, repo, k, d)) || Contributes(key, repo, last, d);
    }
  }

  /** In a well-formed repository, no complete predecessor has the key being
      optimized, and every one belongs to a related key. */
  lemma PredecessorKeys(key: ArtifactKey, related: seq<ArtifactKey>, repo: Repository)
    requires WellFormed(repo)
    ensures forall d :: d in CompletePredecessors(key, related, repo) ==> d.key != key && d.key in related
  {
    forall d | d in CompletePredecessors(key, related, repo) ensures d.key != key && d.key in related {
      PredecessorMembers(key, related, repo, d);
      var k :| k in related && Contributes(key, repo, k, d);
      assert d in repo.descriptors[k];
    }
  }

  /** The inner loop of getSortedCompletePredecessors: the first canonical
      descriptor, found by a scan that stops at the first hit. */
  method FindCanonical(descriptors: seq<ArtifactDescriptor>) returns (found: Option<ArtifactDescriptor>)
    ensures found == FirstCanonical(descriptors)
  {
    for j := 0 to |descriptors|
      invariant forall j' :: 0 <= j' < j ==> !IsCanonical(descriptors[j'])
    {
      if IsCanonical(descriptors[j]) {
        return Some(descriptors[j]);
      }
    }
    return None;
  }

  /** Arrays.sort with the negated descriptor version comparator: newest first. */
  method SortDescriptors(ds: seq<ArtifactDescriptor>) returns (sorted: seq<ArtifactDescriptor>)
    ensures multiset(sorted) == multiset(ds)
    ensures NewestFirst(sorted, DescriptorVersion)
    ensures |sorted| == |ds|
    ensures forall d :: d in sorted ==> d in ds
  {
    sorted := SortNewestFirst(ds, DescriptorVersion);
    assert forall d :: d in sorted ==> d in multiset(ds);
  }

  /** getSortedCompletePredecessors: the complete predecessors, newest first. */
  method GetSortedCompletePredecessors(key: ArtifactKey, related: seq<ArtifactKey>, repo: Repository) returns (sorted: seq<ArtifactDescriptor>)
    ensures multiset(sorted) == multiset(CompletePredecessors(key, related, repo))
    ensures NewestFirst(sorted, DescriptorVersion)
    ensures |sorted| <= |related|
    ensures forall d :: d in sorted ==> IsCanonical(d)
  {
    var complete: seq<ArtifactDescriptor> := [];
    for i := 0 to |related|
      invariant complete == CompletePredecessors(key, related[..i], repo)
    {
      assert related[..i + 1] == related[..i] + [related[i]];
      CompletePredecessorsSnoc(key, related[..i], related[i], repo);
      if related[i] == key {
        continue;
      }
      var found := FindCanonical(DescriptorsOf(repo, related[i]));
      if found.Some? {
        complete := complete + [found.value];
      }
    }
    assert related[..|related|] == related;
    sorted := SortDescriptors(complete);
  }

  /** The jar delta descriptor of `canonical` against `predecessor`: a copy
      of the canonical descriptor with one JarDeltaPatchStep, carrying the
      predecessor's external form, and the jarDelta format. */
  function JarDelta(canonical: ArtifactDescriptor, predecessor: ArtifactDescriptor): (r: ArtifactDescriptor)
    ensures IsOptimized(r) && !IsCanonical(r)
    ensures r.key == canonical.key
    ensures r.steps[0] == ProcessingStepDescriptor(JAR_DELTA_PATCH_STEP, ExternalForm(predecessor.key), true)
    ensures forall p :: p in canonical.properties && p != FORMAT ==> p in r.properties && r.properties[p] == canonical.properties[p]
    ensures forall p :: p in r.properties ==> p == FORMAT || p in canonical.properties
  {
    var patchStep := ProcessingStepDescriptor(JAR_DELTA_PATCH_STEP, ExternalForm(predecessor.key), true);
    ArtifactDescriptor(canonical.key, [patchStep], canonical.properties[FORMAT := JAR_DELTA_FORMAT])
  }

  // ---------------------------------------------------------------------
  // optimize(keys, key): which canonical descriptors get optimized

  /** The canonical descriptors optimize(keys, key) passes on to
      optimize(canonical, keys), in call order, and whether the scan ended
      by passing a null canonical descriptor, which throws. */
  datatype Dispatch = Dispatch(calls: seq<ArtifactDescriptor>, nullCanonical: bool)

  /** A descriptor that leads to a call: canonical, or not optimized. The
      optimized flag is reset for every descriptor. */
  predicate TriggersCall(d: ArtifactDescriptor) {
    IsCanonical(d) || !IsOptimized(d)
  }

  /** The scan of optimize(keys, key) over the descriptors `ds` still to
      visit, with `canonical` the last canonical descriptor seen so far:
      every triggering descriptor passes on the current canonical one. */
  function DispatchFrom(ds: seq<ArtifactDescriptor>, canonical: Option<ArtifactDescriptor>): (r: Dispatch)
    ensures canonical.Some? ==> !r.nullCanonical
    ensures forall c :: c in r.calls ==> c in ds || Some(c) == canonical
    ensures |r.calls| <= |ds|
    decreases |ds|
  {
    if |ds| == 0 then Dispatch([], false)
    else
      var current := if IsCanonical(ds[0]) then Some(ds[0]) else canonical;
      var rest := DispatchFrom(ds[1..], current);
      assert forall c :: c in ds[1..] ==> c in ds;
      if !TriggersCall(ds[0]) then rest
      else match current
        case None => Dispatch([], true)
        case Some(c) => Dispatch([c] + rest.calls, rest.nullCanonical)
  }

  /** optimize(keys, key) over the descriptors of one key. */
  function DispatchOf(ds: seq<ArtifactDescriptor>): (r: Dispatch)
    ensures forall c :: c in r.calls ==> c in ds && IsCanonical(c)
  {
    DispatchCalledCanonical(ds, None);
    DispatchFrom(ds, None)
  }

  /** Every call receives a canonical descriptor. */
  lemma {:induction false} DispatchCalledCanonical(ds: seq<ArtifactDescriptor>, canonical: Option<ArtifactDescriptor>)
    requires canonical.Some? ==> IsCanonical(canonical.value)
    ensures forall c :: c in DispatchFrom(ds, canonical).calls ==> IsCanonical(c)
    decreases |ds|
  {
    if |ds| > 0 {
      var current := if IsCanonical(ds[0]) then Some(ds[0]) else canonical;
      DispatchCalledCanonical(ds[1..], current);
    }
  }

  /** The descriptors that lead to a call. */
  function Triggering(ds: seq<ArtifactDescriptor>): (r: seq<ArtifactDescriptor>)
    ensures forall d :: d in r <==> d in ds && TriggersCall(d)
    decreases |ds|
  {
    if |ds| == 0 then []
    else
      assert forall d :: d in ds <==> d == ds[0] || d in ds[1..];
      (if TriggersCall(ds[0]) then [ds[0]] else []) + Triggering(ds[1..])
  }

  /** Descriptor `i` is neither canonical nor optimized, and no canonical
      descriptor comes before it. */
  predicate NullCanonicalAt(ds: seq<ArtifactDescriptor>, i: int) {
    && 0 <= i < |ds| && !IsCanonical(ds[i]) && !IsOptimized(ds[i])
    && forall j :: 0 <= j < i ==> !IsCanonical(ds[j])
  }

  /** Skipping a leading optimized, non-canonical descriptor shifts the
      positions by one. */
  lemma NullCanonicalShift(ds: seq<ArtifactDescriptor>)
    requires |ds| > 0 && !IsCanonical(ds[0]) && IsOptimized(ds[0])
    ensures (exists i :: NullCanonicalAt(ds, i)) <==> (exists i :: NullCanonicalAt(ds[1..], i))
  {
    forall i | NullCanonicalAt(ds[1..], i) ensures NullCanonicalAt(ds, i + 1) {
      forall j | 0 <= j < i + 1 ensures !IsCanonical(ds[j]) {
        if j > 0 { assert ds[j] == ds[1..][j - 1]; }
      }
    }
    forall i | NullCanonicalAt(ds, i) ensures NullCanonicalAt(ds[1..], i - 1) {
      forall j | 0 <= j < i - 1 ensures !IsCanonical(ds[1..][j]) {
        assert ds[1..][j] == ds[j + 1];
      }
    }
  }

  /** The scan throws exactly when a triggering descriptor comes before any
      canonical one: it would pass on the still-null canonical descriptor. */
  lemma {:induction false} DispatchNull(ds: seq<ArtifactDescriptor>, canonical: Option<ArtifactDescriptor>)
    ensures DispatchFrom(ds, canonical).nullCanonical <==> canonical.None? && exists i :: NullCanonicalAt(ds, i)
    decreases |ds|
  {
    if |ds| > 0 {
      var current := if IsCanonical(ds[0]) then Some(ds[0]) else canonical;
      DispatchNull(ds[1..], current);
      if canonical.None? && !IsCanonical(ds[0]) && IsOptimized(ds[0]) {
        NullCanonicalShift(ds);
      } else if canonical.None? && !IsCanonical(ds[0]) {
        assert NullCanonicalAt(ds, 0);
      } else if canonical.None? {
        assert !NullCanonicalAt(ds, 0);
      }
    }
  }

  /** One step of the scan, at position `k`. */
  lemma DispatchStep(ds: seq<ArtifactDescriptor>, k: nat, canonical: Option<ArtifactDescriptor>)
    requires k < |ds|
    ensures var current := if IsCanonical(ds[k]) then Some(ds[k]) else canonical;
      var rest := DispatchFrom(ds[k + 1..], current);
      DispatchFrom(ds[k..], canonical) ==
        if !TriggersCall(ds[k]) then rest
        else if current.None? then Dispatch([], true)
        else Dispatch([current.value] + rest.calls, rest.nullCanonical)
  {
    assert ds[k..][1..] == ds[k + 1..];
  }

  /** Without the null case, there is one call per triggering descriptor:
      a descriptor that is neither canonical nor optimized sends the last
      canonical descriptor through optimization once more. */
  lemma {:induction false} DispatchCount(ds: seq<ArtifactDescriptor>, canonical: Option<ArtifactDescriptor>)
    requires !DispatchFrom(ds, canonical).nullCanonical
    ensures |DispatchFrom(ds, canonical).calls| == |Triggering(ds)|
    decreases |ds|
  {
    if |ds| > 0 {
      var current := if IsCanonical(ds[0]) then Some(ds[0]) else canonical;
      DispatchCount(ds[1..], current);
    }
  }

  /** Without the null case, every canonical descriptor is optimized. */
  lemma {:induction false} DispatchCoversCanonical(ds: seq<ArtifactDescriptor>, canonical: Option<ArtifactDescriptor>)
    requires !DispatchFrom(ds, canonical).nullCanonical
    ensures forall d :: d in ds && IsCanonical(d) ==> d in DispatchFrom(ds, canonical).calls
    decreases |ds|
  {
    if |ds| > 0 {
      var current := if IsCanonical(ds[0]) then Some(ds[0]) else canonical;
      DispatchCoversCanonical(ds[1..], current);
      assert forall d :: d in ds ==> d == ds[0] || d in ds[1..];
    }
  }

  /** The scan so far accounts for `calls`; visiting descriptor `k` either
      skips it, throws, or accounts for one more call. */
  lemma ScanKeeps(ds: seq<ArtifactDescriptor>, k: nat, canonical: Option<ArtifactDescriptor>, calls: seq<ArtifactDescriptor>)
    requires k < |ds|
    requires var rest := DispatchFrom(ds[k..], canonical);
      DispatchFrom(ds, None) == Dispatch(calls + rest.calls, rest.nullCanonical)
    ensures var current := if IsCanonical(ds[k]) then Some(ds[k]) else canonical;
      var rest := DispatchFrom(ds[k + 1..], current);
      && (!TriggersCall(ds[k]) ==> DispatchFrom(ds, None) == Dispatch(calls + rest.calls, rest.nullCanonical))
      && (TriggersCall(ds[k]) && current.None? ==> DispatchFrom(ds, None) == Dispatch(calls, true))
      && (TriggersCall(ds[k]) && current.Some? ==>
            DispatchFrom(ds, None) == Dispatch(calls + [current.value] + rest.calls, rest.nullCanonical))
  {
    DispatchStep(ds, k, canonical);
    var current := if IsCanonical(ds[k]) then Some(ds[k]) else canonical;
    if TriggersCall(ds[k]) && current.Some? {
      var rest := DispatchFrom(ds[k + 1..], current);
      assert DispatchFrom(ds[k..], canonical) == Dispatch([current.value] + rest.calls, rest.nullCanonical);
      assert calls + ([current.value] + rest.calls) == calls + [current.value] + rest.calls;
    }
  }

  /** optimize(keys, key) as the source writes it: one pass that remembers
      the last canonical descriptor and calls for every descriptor whose
      freshly reset optimized flag stays false. */
  method OptimizeKey(descriptors: seq<ArtifactDescriptor>) returns (r: Dispatch)
    ensures r == DispatchOf(descriptors)
  {
    var canonical: Option<ArtifactDescriptor> := None;
    var calls: seq<ArtifactDescriptor> := [];
    assert descriptors[0..] == descriptors;
    for k := 0 to |descriptors|
      invariant var rest := DispatchFrom(descriptors[k..], canonical);
        DispatchFrom(descriptors, None) == Dispatch(calls + rest.calls, rest.nullCanonical)
    {
      ScanKeeps(descriptors, k, canonical, calls);
      var descriptor := descriptors[k];
      var optimized := false;
      if IsCanonical(descriptor) {
        canonical := Some(descriptor);
      } else {
        optimized := optimized || IsOptimized(descriptor);
      }
      if !optimized {
        if canonical.None? {
          return Dispatch(calls, true);
        }
        calls := calls + [canonical.value];
      }
    }
    return Dispatch(calls, false);
  }

  // ---------------------------------------------------------------------
  // run composed with optimize(keys, key)

  /** A call optimize(canonical, keys) made while processing a key of group
      number `group`. */
  datatype Call = Call(group: nat, canonical: ArtifactDescriptor)

  /** What run does before it finishes: the calls optimize(canonical, keys)
      made, in order, and the exception that ended it early, if any. */
  datatype RunTrace = RunTrace(calls: seq<Call>, thrown: Option<Exception>)

  function CallsFor(group: nat, cs: seq<ArtifactDescriptor>): (r: seq<Call>)
    ensures forall c :: c in r <==> c.group == group && c.canonical in cs
  {
    var r := seq(|cs|, j requires 0 <= j < |cs| => Call(group, cs[j]));
    assert forall j :: 0 <= j < |cs| ==> r[j] == Call(group, cs[j]);
    r
  }

  /** optimize(keys, key) for `k` passes on a null canonical descriptor:
      optimize(canonical, keys) then throws a NullPointerException. */
  predicate Fails(repo: Repository, k: ArtifactKey) {
    exists i :: 0 <= i < |DescriptorsOf(repo, k)| && NullCanonicalAt(DescriptorsOf(repo, k), i)
  }

  /** run over the candidates `plan`, in order: every candidate's key goes
      through optimize(keys, key); the first one that passes on a null
      canonical descriptor ends run with the calls made up to that point. */
  function RunCalls(plan: seq<Candidate>, repo: Repository): (r: RunTrace)
    ensures r.thrown.None? || r.thrown == Some(NullPointer)
    ensures forall c :: c in r.calls ==> IsCanonical(c.canonical)
    decreases |plan|
  {
    if |plan| == 0 then RunTrace([], None)
    else
      var d := DispatchOf(DescriptorsOf(repo, plan[0].key));
      var here := CallsFor(plan[0].group, d.calls);
      if d.nullCanonical then RunTrace(here, Some(NullPointer))
      else
        var rest := RunCalls(plan[1..], repo);
        RunTrace(here + rest.calls, rest.thrown)
  }

  /** run throws exactly when some candidate's key fails. */
  lemma {:induction false} RunThrows(plan: seq<Candidate>, repo: Repository)
    ensures RunCalls(plan, repo).thrown.None? <==> forall c :: c in plan ==> !Fails(repo, c.key)
    decreases |plan|
  {
    if |plan| > 0 {
      DispatchNull(DescriptorsOf(repo, plan[0].key), None);
      RunThrows(plan[1..], repo);
      assert forall c :: c in plan <==> c == plan[0] || c in plan[1..];
    }
  }

  /** Nothing after a failing candidate is processed. */
  lemma {:induction false} RunStopsAtFailure(plan: seq<Candidate>, repo: Repository, t: nat)
    requires t < |plan| && Fails(repo, plan[t].key)
    ensures RunCalls(plan, repo) == RunCalls(plan[..t + 1], repo)
    decreases t
  {
    DispatchNull(DescriptorsOf(repo, plan[0].key), None);
    if t > 0 {
      RunStopsAtFailure(plan[1..], repo, t - 1);
      assert plan[..t + 1][1..] == plan[1..][..t];
    }
  }

  /** When run finishes normally, every canonical descriptor of every
      candidate's key has been optimized, tagged with its group. */
  lemma {:induction false} RunCompleteCovers(plan: seq<Candidate>, repo: Repository)
    requires RunCalls(plan, repo).thrown.None?
    ensures forall t, d :: 0 <= t < |plan| && d in DescriptorsOf(repo, plan[t].key) && IsCanonical(d)
              ==> Call(plan[t].group, d) in RunCalls(plan, repo).calls
    decreases |plan|
  {
    if |plan| > 0 {
      var ds := DescriptorsOf(repo, plan[0].key);
      DispatchCoversCanonical(ds, None);
      RunCompleteCovers(plan[1..], repo);
      forall t, d | 0 <= t < |plan| && d in DescriptorsOf(repo, plan[t].key) && IsCanonical(d)
        ensures Call(plan[t].group, d) in RunCalls(plan, repo).calls
      {
        if t > 0 {
          assert plan[t] == plan[1..][t - 1];
        }
      }
    }
  }

  /** One step of run at candidate `t`. */
  lemma RunStep(plan: seq<Candidate>, repo: Repository, t: nat)
    requires t < |plan|
    ensures var d := DispatchOf(DescriptorsOf(repo, plan[t].key));
      var here := CallsFor(plan[t].group, d.calls);
      var rest := RunCalls(plan[t + 1..], repo);
      RunCalls(plan[t..], repo) ==
        if d.nullCanonical then RunTrace(here, Some(NullPointer))
        else RunTrace(here + rest.calls, rest.thrown)
  {
    assert plan[t..][1..] == plan[t + 1..];
  }

  /** run so far accounts for `calls`; candidate `t` either ends it or
      accounts for its own calls too. */
  lemma RunKeeps(plan: seq<Candidate>, repo: Repository, t: nat, calls: seq<Call>)
    requires t < |plan|
    requires var rest := RunCalls(plan[t..], repo);
      RunCalls(plan, repo) == RunTrace(calls + rest.calls, rest.thrown)
    ensures var d := DispatchOf(DescriptorsOf(repo, plan[t].key));
      var here := CallsFor(plan[t].group, d.calls);
      var rest := RunCalls(plan[t + 1..], repo);
      && (d.nullCanonical ==> RunCalls(plan, repo) == RunTrace(calls + here, Some(NullPointer)))
      && (!d.nullCanonical ==> RunCalls(plan, repo) == RunTrace(calls + here + rest.calls, rest.thrown))
  {
    RunStep(plan, repo, t);
    var d := DispatchOf(DescriptorsOf(repo, plan[t].key));
    if !d.nullCanonical {
      var here := CallsFor(plan[t].group, d.calls);
      var rest := RunCalls(plan[t + 1..], repo);
      assert RunCalls(plan[t..], repo) == RunTrace(here + rest.calls, rest.thrown);
      assert calls + (here + rest.calls) == calls + here + rest.calls;
    }
  }

  /** run's loops after the width loop: optimize(keys, key) for each
      candidate in turn, until one passes on a null canonical descriptor. */
  method OptimizeAll(plan: seq<Candidate>, repo: Repository) returns (trace: RunTrace)
    ensures trace == RunCalls(plan, repo)
  {
    var calls: seq<Call> := [];
    assert plan[0..] == plan;
    for t := 0 to |plan|
      invariant var rest := RunCalls(plan[t..], repo);
        RunCalls(plan, repo) == RunTrace(calls + rest.calls, rest.thrown)
    {
      RunKeeps(plan, repo, t, calls);
      var d := OptimizeKey(DescriptorsOf(repo, plan[t].key));
      calls := calls + CallsFor(plan[t].group, d.calls);
      if d.nullCanonical {
        return RunTrace(calls, Some(NullPointer));
      }
    }
    return RunTrace(calls, None);
  }

  /** run as the source writes it, over the sorted groups: it finishes
      normally exactly when no key it selects fails. */
  method RunOptimizations(lists: seq<seq<ArtifactKey>>, width: int, repo: Repository) returns (trace: RunTrace)
    ensures trace == RunCalls(PlanOf(lists, width), repo)
    ensures trace.thrown.None? <==> forall c :: c in PlanOf(lists, width) ==> !Fails(repo, c.key)
  {
    var plan := Run(lists, width);
    trace := OptimizeAll(plan, repo);
    RunThrows(plan, repo);
  }

  /** run itself: the repository's keys grouped and sorted by
      getSortedRelatedArtifactKeys, then the width loop and the per-key
      scans. A run that throws has met a failing key of the repository, and
      a repository without failing keys runs to the end. */
  method RunRepository(keys: seq<ArtifactKey>, width: int, repo: Repository) returns (lists: seq<seq<ArtifactKey>>, trace: RunTrace)
    ensures |lists| == |VersionlessKeys(keys)|
    ensures forall i :: 0 <= i < |lists| ==> |lists[i]| > 0 && NewestFirst(lists[i], KeyVersion)
    ensures forall i, x :: 0 <= i < |lists| && x in lists[i] ==> Versionless(x) == Versionless(lists[i][0])
    ensures forall i, j :: 0 <= i < j < |lists| ==> Versionless(lists[i][0]) != Versionless(lists[j][0])
    ensures forall i, k :: 0 <= i < |lists| && k in keys && Versionless(k) == Versionless(lists[i][0])
              ==> multiset(lists[i])[k] == multiset(keys)[k]
    ensures multiset(Flatten(lists)) == multiset(keys)
    ensures trace == RunCalls(PlanOf(lists, width), repo)
    ensures trace.thrown.None? <==> forall c :: c in PlanOf(lists, width) ==> !Fails(repo, c.key)
    ensures trace.thrown.Some? ==> exists k :: k in keys && Fails(repo, k)
  {
    lists := GetSortedRelatedArtifactKeys(keys);
    trace := RunOptimizations(lists, width, repo);
    if trace.thrown.Some? {
      var c :| c in PlanOf(lists, width) && Fails(repo, c.key);
      PlanMembers(lists, width, c);
      var sel := Selection(lists[c.group], width);
      assert c.key in lists[c.group][..|sel|];
      FlattenHas(lists, c.group, c.key);
      assert multiset(Flatten(lists))[c.key] > 0;
    }
  }

  /** The depth loop of optimize(canonical, relatedArtifactKeys): one jar
      delta descriptor against each of the first min(depth, #predecessors)
      predecessors, in order. */
  method MakeDeltas(canonical: ArtifactDescriptor, predecessors: seq<ArtifactDescriptor>, depth: int)
    returns (deltas: seq<ArtifactDescriptor>)
    ensures |deltas| == LoopCount(depth, |predecessors|)
    ensures forall i :: 0 <= i < |deltas| ==> deltas[i] == JarDelta(canonical, predecessors[i])
  {
    var minDepth := Min(depth, |predecessors|);
    deltas := [];
    var i := 0;
    while i < minDepth
      invariant 0 <= i <= LoopCount(depth, |predecessors|)
      invariant i == |deltas|
      invariant forall t :: 0 <= t < i ==> deltas[t] == JarDelta(canonical, predecessors[t])
    {
      deltas := deltas + [JarDelta(canonical, predecessors[i])];
      i := i + 1;
    }
  }

  /** optimize(canonical, relatedArtifactKeys): one jar delta descriptor for
      each of the min(depth, #predecessors) newest complete predecessors. */
  method OptimizeCanonical(canonical: ArtifactDescriptor, related: seq<ArtifactKey>, repo: Repository, depth: int)
    returns (predecessors: seq<ArtifactDescriptor>, deltas: seq<ArtifactDescriptor>)
    ensures multiset(predecessors) == multiset(CompletePredecessors(canonical.key, related, repo))
    ensures NewestFirst(predecessors, DescriptorVersion)
    ensures |deltas| == LoopCount(depth, |predecessors|)
    ensures forall i :: 0 <= i < |deltas| ==> deltas[i] == JarDelta(canonical, predecessors[i])
    ensures forall i, j :: 0 <= i < |deltas| <= j < |predecessors| ==> AtLeast(predecessors[i].key.version, predecessors[j].key.version)
    ensures forall d :: d in deltas ==> IsOptimized(d) && d.key == canonical.key
  {
    predecessors := GetSortedCompletePredecessors(canonical.key, related, repo);
    deltas := MakeDeltas(canonical, predecessors, depth);
  }
}

=== FILE: sorting.dfy ===
/** Sorting newest-first by version, the effect of Arrays.sort with the
    negated version comparators of the jar delta optimizer. */
module Sorting {
  import opened Versions

  /** Every element is at least as new as every element after it. */
  predicate NewestFirst<T>(s: seq<T>, version: T -> Version) {
    forall i, j :: 0 <= i < j < |s| ==> AtLeast(version(s[i]), version(s[j]))
  }

  /** Inserts `x` after every element at least as new as it, so that the
      insertion keeps a newest-first sequence newest-first. */
  function Insert<T>(x: T, s: seq<T>, version: T -> Version): (r: seq<T>)
    requires NewestFirst(s, version)
    ensures NewestFirst(r, version)
    ensures multiset(r) == multiset(s) + multiset{x}
    ensures |r| == |s| + 1
  {
    if |s| == 0 then [x]
    else if Compare(version(x), version(s[0])) > 0 then
      forall j | 0 <= j < |s| ensures AtLeast(version(x), version(s[j])) {
        CompareIsTotalOrder(version(x), version(s[0]), version(s[j]));
      }
      [x] + s
    else
      var rest := Insert(x, s[1..], version);
      assert s == [s[0]] + s[1..];
      forall j | 0 <= j < |rest| ensures AtLeast(version(s[0]), version(rest[j])) {
        assert rest[j] in multiset(rest);
        if rest[j] == x {
          CompareIsTotalOrder(version(x), version(s[0]), version(x));
        } else {
          assert rest[j] in s[1..];
        }
      }
      [s[0]] + rest
  }

  /** Insertion sort, newest first; elements of equal version keep their
      relative order. */
  function SortNewestFirst<T>(s: seq<T>, version: T -> Version): (r: seq<T>)
    ensures NewestFirst(r, version)
    ensures multiset(r) == multiset(s)
    ensures |r| == |s|
    decreases |s|
  {
    if |s| == 0 then []
    else
      assert s == s[..|s| - 1] + [s[|s| - 1]];
      Insert(s[|s| - 1], SortNewestFirst(s[..|s| - 1], version), version)
  }
}

=== FILE: source_manipulator.dfy ===
/** The source-bundle list of a profile (the entries of its source.info
    file): loaded lazily on first use, then appended to and removed from in
    memory, and written back only if it was ever loaded. Reading and writing
    the file are modelled by the file's content; BundleInfo equality is a
    parameter. */
module SourceManipulator {
  import opened Common
  import opened Versions

  /** A bundle entry: location, symbolic name and version, each possibly unset. */
  datatype BundleInfo = BundleInfo(location: Option<string>, symbolicName: Option<string>, version: Option<string>)

  /** A bundle file, known by the string form of its URL. */
  datatype BundleFile = BundleFile(url: string)

  /** The source.info file: its entries, or None when it does not exist. */
  datatype SourceInfo = SourceInfo(entries: Option<seq<BundleInfo>>)

  /** The manipulator's state: the list, or None until it is loaded. */
  datatype Manipulator = Manipulator(sourceBundles: Option<seq<BundleInfo>>)

  /** A new manipulator has not loaded anything. */
  const Fresh := Manipulator(None)

  /** load: the file's entries, or an empty list when there is no file. */
  function Load(file: SourceInfo): (r: seq<BundleInfo>)
    ensures file.entries.None? ==> r == []
    ensures file.entries.Some? ==> r == file.entries.value
  {
    match file.entries
    case None => []
    case Some(entries) => entries
  }

  /** The list an operation works on: the loaded one, loading it first if
      needed. */
  function Current(m: Manipulator, file: SourceInfo): seq<BundleInfo> {
    if m.sourceBundles.None? then Load(file) else m.sourceBundles.value
  }

  /** getBundles: loads if needed and returns a copy of the list. */
  function GetBundles(m: Manipulator, file: SourceInfo): (r: (Manipulator, seq<BundleInfo>))
    ensures r.0.sourceBundles == Some(r.1)
    ensures m.sourceBundles.Some? ==> r.0 == m
    ensures m.sourceBundles.None? ==> r.1 == Load(file)
  {
    var list := Current(m, file);
    (Manipulator(Some(list)), list)
  }

  /** The entry addBundle(file) appends: only the location is set. */
  function LocationEntry(f: BundleFile): BundleInfo {
    BundleInfo(Some(f.url), None, None)
  }

  /** The entry addBundle(file, id, version) appends, and the probe
      removeBundle compares with. */
  function FullEntry(f: Option<BundleFile>, id: string, v: Version): BundleInfo {
    BundleInfo(if f.None? then None else Some(f.value.url), Some(id), Some(Versions.ToString(v)))
  }

  /** addBundle(file): appends one entry with the file's location. */
  function AddBundle(m: Manipulator, file: SourceInfo, f: BundleFile): (r: Manipulator)
    ensures r.sourceBundles.Some?
    ensures var before := Current(m, file); var after := r.sourceBundles.value;
      && |after| == |before| + 1
      && after[..|before|] == before
      && after[|before|].location == Some(f.url)
      && after[|before|].symbolicName.None? && after[|before|].version.None?
  {
    var before := Current(m, file);
    var after := before + [LocationEntry(f)];
    assert after[..|before|] == before;
    Manipulator(Some(after))
  }

  /** addBundle(file, id, version): appends one entry carrying the file's
      location, the symbolic name and the version. */
  function AddBundleWithVersion(m: Manipulator, file: SourceInfo, f: BundleFile, id: string, v: Version): (r: Manipulator)
    ensures r.sourceBundles.Some?
    ensures var before := Current(m, file); var after := r.sourceBundles.value;
      && |after| == |before| + 1
      && after[..|before|] == before
      && after[|before|] == BundleInfo(Some(f.url), Some(id), Some(Versions.ToString(v)))
  {
    var before := Current(m, file);
    var after := before + [FullEntry(Some(f), id, v)];
    assert after[..|before|] == before;
    Manipulator(Some(after))
  }

  /** List.indexOf: the position of the first element the probe equals, or
      the list's length when there is none. */
  function IndexOf(xs: seq<BundleInfo>, probe: BundleInfo, equals: (BundleInfo, BundleInfo) -> bool): (r: nat)
    ensures r <= |xs|
    ensures forall i :: 0 <= i < r ==> !equals(probe, xs[i])
    ensures r < |xs| ==> equals(probe, xs[r])
    decreases |xs|
  {
    if |xs| == 0 then 0
    else if equals(probe, xs[0]) then 0
    else 1 + IndexOf(xs[1..], probe, equals)
  }

  /** List.remove(Object): removes the first element the probe equals, if
      any; nothing else changes. */
  function RemoveFirst(xs: seq<BundleInfo>, probe: BundleInfo, equals: (BundleInfo, BundleInfo) -> bool): (r: seq<BundleInfo>)
    ensures (forall i :: 0 <= i < |xs| ==> !equals(probe, xs[i])) <==> r == xs
    ensures (exists i :: 0 <= i < |xs| && equals(probe, xs[i])) ==>
              exists j :: 0 <= j < |xs| && equals(probe, xs[j])
                && (forall i :: 0 <= i < j ==> !equals(probe, xs[i]))
                && r == xs[..j] + xs[j + 1..]
  {
    var j := IndexOf(xs, probe, equals);
    if j == |xs| then xs else xs[..j] + xs[j + 1..]
  }

  /** removeBundle: removes the first entry equal to the probe, whose
      location is set only when a file is given. */
  function RemoveBundle(m: Manipulator, file: SourceInfo, f: Option<BundleFile>, id: string, v: Version,
                        equals: (BundleInfo, BundleInfo) -> bool): (r: Manipulator)
    ensures r.sourceBundles.Some?
    ensures var before := Current(m, file); var after := r.sourceBundles.value;
      |after| == if exists i :: 0 <= i < |before| && equals(FullEntry(f, id, v), before[i]) then |before| - 1 else |before|
    ensures var before := Current(m, file); var after := r.sourceBundles.value;
      (forall i :: 0 <= i < |before| ==> !equals(FullEntry(f, id, v), before[i])) ==> after == before
    ensures var before := Current(m, file); var after := r.sourceBundles.value;
      (exists i :: 0 <= i < |before| && equals(FullEntry(f, id, v), before[i])) ==>
        exists j :: 0 <= j < |before| && equals(FullEntry(f, id, v), before[j])
          && (forall i :: 0 <= i < j ==> !equals(FullEntry(f, id, v), before[i]))
          && after == before[..j] + before[j + 1..]
  {
    Manipulator(Some(RemoveFirst(Current(m, file), FullEntry(f, id, v), equals)))
  }

  /** save: what is written to source.info; nothing when the list was never
      loaded. */
  function Save(m: Manipulator): (r: Option<seq<BundleInfo>>)
    ensures r.None? <==> m.sourceBundles.None?
    ensures r.Some? ==> r == m.sourceBundles
  {
    m.sourceBundles
  }

  /** The list is loaded at most once: once loaded, no operation reads the
      file again, so its content no longer matters. */
  lemma LoadedAtMostOnce(m: Manipulator, file1: SourceInfo, file2: SourceInfo, f: BundleFile, g: Option<BundleFile>,
                         id: string, v: Version, equals: (BundleInfo, BundleInfo) -> bool)
    requires m.sourceBundles.Some?
    ensures GetBundles(m, file1) == GetBundles(m, file2)
    ensures AddBundle(m, file1, f) == AddBundle(m, file2, f)
    ensures AddBundleWithVersion(m, file1, f, id, v) == AddBundleWithVersion(m, file2, f, id, v)
    ensures RemoveBundle(m, file1, g, id, v, equals) == RemoveBundle(m, file2, g, id, v, equals)
  {
  }

  /** Removing the entry just added, when no earlier entry matches the probe
      and the probe equals itself, restores the list. */
  lemma AddThenRemove(m: Manipulator, file: SourceInfo, f: BundleFile, id: string, v: Version,
                      equals: (BundleInfo, BundleInfo) -> bool)
    requires equals(FullEntry(Some(f), id, v), FullEntry(Some(f), id, v))
    requires forall i :: 0 <= i < |Current(m, file)| ==> !equals(FullEntry(Some(f), id, v), Current(m, file)[i])
    ensures RemoveBundle(AddBundleWithVersion(m, file, f, id, v), file, Some(f), id, v, equals).sourceBundles == Some(Current(m, file))
  {
    var before := Current(m, file);
    var probe := FullEntry(Some(f), id, v);
    var after := before + [probe];
    assert AddBundleWithVersion(m, file, f, id, v).sourceBundles == Some(after);
    var r := RemoveFirst(after, probe, equals);
    var j :| 0 <= j < |after| && equals(probe, after[j]) && (forall i :: 0 <= i < j ==> !equals(probe, after[i]))
             && r == after[..j] + after[j + 1..];
    assert j == |before|;
    assert r == before;
  }

  /** getBundles returns the list in order and does not change it. */
  lemma GetBundlesIsSnapshot(m: Manipulator, file: SourceInfo)
    ensures var (m', list) := GetBundles(m, file);
      && m'.sourceBundles == Some(Current(m, file))
      && |list| == |Current(m, file)|
      && (forall i :: 0 <= i < |list| ==> list[i] == Current(m, file)[i])
      && GetBundles(m', file) == (m', list)
  {
  }
}

=== FILE: versions.dfy ===
/** Versions and their order. The Version class itself is not part of this
    model; its compareTo is modelled as the OSGi order: major, minor and micro
    compared numerically, then the qualifier compared lexicographically. */
module Versions {

  datatype Version = Version(major: nat, minor: nat, micro: nat, qualifier: string)

  /** Version.emptyVersion, 0.0.0 with no qualifier. */
  const Empty := Version(0, 0, 0, "")

  /** A version range, known here only through its toString form. */
  datatype VersionRange = VersionRange(text: string)

  function CompareNat(a: nat, b: nat): int {
    if a < b then -1 else if a > b then 1 else 0
  }

  /** The sign of Java's String.compareTo: lexicographic by character, a
      proper prefix first. */
  function CompareStrings(a: string, b: string): (r: int)
    ensures -1 <= r <= 1
  {
    if |a| == 0 && |b| == 0 then 0
    else if |a| == 0 then -1
    else if |b| == 0 then 1
    else if a[0] < b[0] then -1
    else if a[0] > b[0] then 1
    else CompareStrings(a[1..], b[1..])
  }

  /** The sign of Version.compareTo. */
  function Compare(a: Version, b: Version): (r: int)
    ensures -1 <= r <= 1
  {
    if a.major != b.major then CompareNat(a.major, b.major)
    else if a.minor != b.minor then CompareNat(a.minor, b.minor)
    else if a.micro != b.micro then CompareNat(a.micro, b.micro)
    else CompareStrings(a.qualifier, b.qualifier)
  }

  /** `a` is at least as new as `b`. */
  predicate AtLeast(a: Version, b: Version) {
    Compare(a, b) >= 0
  }

  lemma {:induction false} CompareStringsAntisymmetric(a: string, b: string)
    ensures CompareStrings(a, b) == -CompareStrings(b, a)
    ensures CompareStrings(a, b) == 0 <==> a == b
    decreases |a|
  {
    if |a| > 0 && |b| > 0 && a[0] == b[0] {
      CompareStringsAntisymmetric(a[1..], b[1..]);
      if a[1..] == b[1..] {
        assert a == [a[0]] + a[1..] && b == [b[0]] + b[1..];
      }
    }
  }

  lemma {:induction false} CompareStringsTransitive(a: string, b: string, c: string)
    requires CompareStrings(a, b) >= 0 && CompareStrings(b, c) >= 0
    ensures CompareStrings(a, c) >= 0
    decreases |a|
  {
    if |a| > 0 && |b| > 0 && |c| > 0 && a[0] == b[0] && b[0] == c[0] {
      CompareStringsTransitive(a[1..], b[1..], c[1..]);
    }
  }

  /** Version.compareTo is a total order: antisymmetric, zero exactly on
      equal versions, and transitive. */
  lemma CompareIsTotalOrder(a: Version, b: Version, c: Version)
    ensures Compare(a, b) == -Compare(b, a)
    ensures Compare(a, b) == 0 <==> a == b
    ensures AtLeast(a, b) || AtLeast(b, a)
    ensures AtLeast(a, b) && AtLeast(b, c) ==> AtLeast(a, c)
  {
    CompareStringsAntisymmetric(a.qualifier, b.qualifier);
    if AtLeast(a, b) && AtLeast(b, c) && a.major == b.major == c.major
      && a.minor == b.minor == c.minor && a.micro == b.micro == c.micro
    {
      CompareStringsTransitive(a.qualifier, b.qualifier, c.qualifier);
    }
  }

  function DigitChar(d: nat): char
    requires d < 10
  {
    "0123456789"[d]
  }

  /** Integer.toString of a non-negative number. */
  function NatToString(n: nat): (s: string)
    ensures |s| > 0
    ensures forall i :: 0 <= i < |s| ==> '0' <= s[i] <= '9'
    decreases n
  {
    if n < 10 then [DigitChar(n)] else NatToString(n / 10) + [DigitChar(n % 10)]
  }

  /** Version.toString: major.minor.micro, then .qualifier when there is one. */
  function ToString(v: Version): string {
    NatToString(v.major) + "." + NatToString(v.minor) + "." + NatToString(v.micro)
      + (if v.qualifier == "" then "" else "." + v.qualifier)
  }
}
